=== FILE: README.md ===
# Blogging backend: a Dafny model of its route handlers

The system is an Express/Mongoose blogging backend. It has four collections:

- users;
- blog posts, each with embedded feedback (rating/comment) entries;
- follow edges;
- notifications.

Its routes are:

- registration and login;
- the author's post lifecycle (create, update, delete, rate-comment);
- following other users;
- reading unread notifications and a feed of followed authors;
- admin routes that list users, block users, disable posts, and show posts with their average rating.

This project models every handler as a pure transition over an in-memory `Store` (`store.dfy`):

- A write handler returns a `Step`: an `Outcome` (`Created` = 201, `Done` = 200, or `Fail(error)`, where `Error.Status()` gives 400/401/403/404/500) together with the new store.
- A read handler returns a `Result`.

Each request carries the claims of its token (`Claims(userId, role)`). The `/admin` middleware's role check is the first check of every admin handler.

Modules, in dependency order:

| file | module | what it holds |
|---|---|---|
| types.dfy | `Types` | ids, roles, token claims, errors with their HTTP status, `Option`, `Result`, `Outcome` |
| seqs.dfy | `Seqs` | `find` filtering, sort on a timestamp key (a proved insertion sort), `parseInt(x) \|\| default`, skip/limit pagination |
| text.dfy | `Text` | case-insensitive literal matching, standing in for `new RegExp(p, 'i')` |
| blog_model.dfy | `BlogModel` | the BlogPost and feedback documents, schema defaults, `$avg` of ratings, `findById` |
| notification_model.dfy | `NotificationModel` | the Notification document and the two shapes the routes save |
| store.dfy | `Store` | users, follow edges, the store, lookups, `populate`, and the store invariant `Valid` |
| login.dfy | `Login` | register and login |
| blog_routes.dfy | `BlogRoutes` | the `/blog` routes |
| user_routes.dfy | `UserRoutes` | the `/user` profile, follow, notifications and feed routes |
| admin_routes.dfy | `AdminRoutes` | the `/admin` routes and their aggregation pipelines |
| invariants.dfy | `Invariants` | every write route keeps `Valid` |
| scenarios.dfy | `Scenarios` | properties that span several requests |

Conventions used throughout:

- The empty string stands for a request field that is absent or falsy where the handler tests it with truthiness. A field the handler passes straight to an update (the profile's username and email) is an `Option` instead.
- Page parameters are `Option<nat>`. `None` stands for absent or non-numeric, and `0` falls back to the default as `|| default` does.
- Ids are `nat`. The store's `nextId` counter hands out fresh ObjectIds.
- Timestamps are `nat` values passed in as `now`.

The model keeps these behaviours of the code exactly as written:

- The listing's author filter matches usernames against the **title** parameter (routes/Blog.js:124). The value of `author` only switches that clause on (`BlogRoutes.AuthorValueIgnored`).
- `/blog/all-of-author` applies no filter at all, so it returns every post, disabled ones included (routes/Blog.js:34).
- Following a user id that matches no one dereferences `null.role`. The handler's catch block then answers 500 (`TargetMissing`).
- A profile update re-checks no uniqueness, so two users can end up with one username (`UserRoutes.UpdateProfileCanDuplicateNames`).
- The admin aggregations' `$unwind` drops posts whose author no longer exists (`AdminRoutes.AuthorResolves`).
- The listings' `if (!blogPosts)` 404 can never fire, because an array is always truthy. Those routes always answer 200.
- An update or create whose title or content is missing or empty fails Mongoose's `required` validation. The handler reports that as a 500 (`ValidationFailed`), and nothing is written.

## Model

| member | source | states |
|---|---|---|
| Types.Error.Status | routes/Login.js:15-60 | the status each refusal answers with: 400 for bad requests and duplicates, 401 for credentials, disabled users and non-admins, 403 for a non-author, 404 for a missing post or empty result, 500 for the data-driven crashes |
| Seqs.Filter | routes/Blog.js:145 | the kept items are exactly the input's items that satisfy the predicate, each kept as many times as the input holds it |
| Seqs.FilterStep | routes/Blog.js:145 | the head of the input is kept exactly when the predicate accepts it |
| Seqs.Map | routes/Admin.js:10 | one result per item, in order, each the function of that item |
| Seqs.FilterMap | routes/Admin.js:10 | filtering after a rewrite the predicate cannot see equals rewriting the filtered items |
| Seqs.DirectionOf | routes/Blog.js:139 | the sort is descending exactly when `sortOrder` is 'desc', ascending otherwise |
| Seqs.SortBy | routes/Blog.js:147 | the sorted result is a permutation (same multiset) of the input, ordered on the timestamp key |
| Seqs.SortByMembership | routes/Blog.js:147 | sorting neither adds nor loses any item |
| Seqs.First | routes/Blog.js:72 | gives none exactly when no item matches, and otherwise an item that matches with no matching item before it |
| Seqs.ParamOr | routes/Blog.js:116-117 | `parseInt(x) \|\| d`: a positive parameter is used, and an absent, non-numeric or zero one falls back |
| Seqs.PagingOf | routes/Blog.js:116-117 | a given non-zero page and page size are used as given; an absent or zero one becomes 1 and 10 respectively |
| Seqs.CountsStep | routes/Blog.js:145 | keeping or dropping the head extends the item counts of the filtered tail to the whole input |
| Seqs.SortedFromInput | routes/Blog.js:147 | every item of the sorted sequence is an input item |
| Seqs.OffsetIsProduct | routes/Blog.js:140 | the pages before page n hold exactly `(n - 1) * pageSize` items |
| Seqs.Page | routes/Blog.js:148-149 | `.skip((page-1)*size).limit(size)`: at most `size` items, item i being item `offset + i` of the input, and exactly `min(size, rest)` items when the offset is in range |
| Seqs.PageKeepsOrder | routes/Blog.js:147-149 | a page of a sorted sequence is sorted |
| Seqs.PageKeepsAll | routes/Admin.js:76-82 | a page holds only items of the sequence it was cut from |
| Seqs.PageOfIndex | routes/Blog.js:140 | item k is shown on page `k / size + 1`, at position `k - offset` |
| Seqs.PlaceOnPage | routes/Blog.js:148-149 | every item of a sequence appears on some page |
| Seqs.ConsecutivePages | routes/Blog.js:140 | page n followed by page n+1 is exactly the window of the next `2 * size` items, so no item is skipped or repeated |
| Seqs.SecondPageOfTen | routes/Blog.js:140 | with the default size, page 2 is items 11 to 20 |
| Seqs.FilterKeepsDistinct | routes/Blog.js:104 | removing items keeps ids unique |
| Seqs.DistinctCons | routes/Blog.js:104 | a head whose key no later item carries keeps keys distinct |
| Text.EmptyPatternMatchesAll | routes/Blog.js:124 | `new RegExp(undefined, 'i')` (author given, no title) matches every username |
| Text.Matches | routes/Blog.js:124-137 | `new RegExp(p, 'i').test(s)` for a literal pattern: p occurs somewhere in s, letters compared without regard to ASCII case |
| BlogModel.NewPost | modals/Blog.js:3-17 | a saved post defaults category to '', starts with no feedback, is enabled, and is stamped with its creation time |
| BlogModel.NewFeedback | modals/Blog.js:10-13 | a feedback entry defaults rating to 0 and comment to '', and carries its creation time |
| BlogModel.AverageRating | routes/Admin.js:71 | `$avg` is null exactly when there is no feedback; otherwise average times count equals the sum of ratings |
| BlogModel.SumAppend | routes/Admin.js:71 | one more entry adds its rating to the sum |
| BlogModel.AverageWithinRatings | routes/Admin.js:71 | the average lies between the lowest and highest rating |
| BlogModel.AverageExamples | routes/Admin.js:123 | ratings 3 and 5 average to 4, and no feedback gives null rather than 0 |
| BlogModel.FindPost | routes/Blog.js:72 | `findById` gives none exactly when no post has the id, and otherwise the first post carrying it |
| NotificationModel.FollowNotice | modals/Notification.js:3-9 | a follow notification is addressed to the target, names the follower, has no post, and is unread |
| NotificationModel.CommentNotice | modals/Notification.js:3-9 | a comment notification is addressed to the author, names the post, has no follower, and is unread |
| Store.FindUser | routes/User.js:48 | `findById` gives none exactly when no user has the id, and otherwise the first user carrying it |
| Store.FindUserByName | routes/Login.js:45 | `findOne({ username })` gives none exactly when no user has the name, and otherwise the first one |
| Store.FindUserAt | routes/User.js:48 | with unique ids, the lookup finds the user at any index carrying the id |
| Store.FindPostAt | routes/Blog.js:72 | with unique ids, the lookup finds the post at any index carrying the id |
| Store.FindUserAfterRewrite | routes/User.js:13 | a rewrite that keeps every id keeps which user an id lookup finds |
| Store.AuthorName | routes/Blog.js:146 | `populate('author', 'username')` gives the author's name, or null when the author is gone |
| Store.Populate | routes/Blog.js:146 | populating keeps the page's posts and order and attaches each author's name |
| Store.PopulatedPage | routes/Blog.js:145-149 | a populated page is the window of the order at offset `(page-1)*size`, `min(size, rest)` long, empty exactly past the end, with author names |
| Store.PopulatedPageKeeps | routes/Blog.js:145-149 | a populated page of a sorted order stays sorted, and keeps any property every post of the order has |
| Login.ParseRole | routes/Login.js:17 | only 'user' and 'admin' are accepted roles |
| Login.Register | routes/Login.js:10-33 | taken name or email, then unknown role, then second admin are refused in that order with nothing written; otherwise exactly one enabled user with the hashed password and a fresh id is appended |
| Login.Taken | routes/Login.js:13-16 | `findOne({ $or: [{ username }, { email }] })` finds someone: some stored user has the name or the email |
| Login.LogIn | routes/Login.js:42-57 | unknown name and wrong password both give 'Invalid credentials'; the disabled flag is checked only after a right password; success gives exactly the user's id and role |
| Login.RegisterKeepsSingleAdmin | routes/Login.js:20-23 | if there is at most one admin before register, there is at most one after |
| Login.RegisterThenLogIn | routes/Login.js:24-57 | a user just registered logs in with the same password and gets a token for the new id |
| BlogRoutes.CreatePost | routes/Blog.js:9-21 | missing title or content is a 500 with nothing saved; otherwise exactly one post is appended, authored by the caller, with the given fields, the category defaulting to '', and empty feedback |
| BlogRoutes.AllOfAuthor | routes/Blog.js:29-43 | always 200; page n is the posts at positions `(n-1)*size` onwards, at most `size` of them, of every stored post sorted newest first, disabled ones included, each with its author's name |
| BlogRoutes.AuthorPageContents | routes/Blog.js:34-38 | an all-of-author page holds stored posts, newest first |
| BlogRoutes.EveryPostIsOnSomeAuthorPage | routes/Blog.js:34-38 | every stored post, disabled or not, is on some page of all-of-author |
| BlogRoutes.GetPost | routes/Blog.js:52-58 | 404 exactly when no post has the id; otherwise that post with its author's name |
| BlogRoutes.UpdatePost | routes/Blog.js:67-84 | 404 if missing, then 403 if not the author, then 500 if a required field is empty, with the store unchanged; on success only title, content and category of that post change |
| BlogRoutes.Edited | routes/Blog.js:79-81 | the post with title, content and category replaced, an absent category stored as '' |
| BlogRoutes.DeletePost | routes/Blog.js:93-105 | 404, then 403, with nothing changed; on success every post with that id is gone and every other post stays, each exactly as many times as it was stored |
| BlogRoutes.Clauses | routes/Blog.js:118-137 | an author clause is pushed only when `author` is given and some username matches the title pattern; title and category clauses only when given |
| BlogRoutes.MatchingAuthors | routes/Blog.js:124-126 | the ids of the users whose username matches the title pattern |
| BlogRoutes.Eligible | routes/Blog.js:118-143 | the filter: the post is enabled, and either no clause was pushed (`$or` deleted) or some clause holds |
| BlogRoutes.Candidates | routes/Blog.js:145 | the candidates are exactly the stored posts that are eligible for the query |
| BlogRoutes.Ordered | routes/Blog.js:139-147 | the candidates, ordered by created_at in the requested direction, each exactly as many times as it is a candidate |
| BlogRoutes.ListPosts | routes/Blog.js:114-153 | always 200; the window at offset `(page-1)*size` of the eligible posts in the requested order, `min(size, rest)` rows, each an eligible stored post with its author's name |
| BlogRoutes.ListPageContents | routes/Blog.js:145-149 | every listing page holds eligible stored posts in the requested order |
| BlogRoutes.EligibleMeans | routes/Blog.js:118-143 | a post is eligible exactly when it is enabled and either no clause was pushed, or its author matched the title pattern (when `author` is given), or its title matches, or its category matches |
| BlogRoutes.NoFilterListsAllEnabled | routes/Blog.js:141-143 | with no filter parameter every enabled post is eligible (the empty `$or` is dropped) |
| BlogRoutes.AuthorValueIgnored | routes/Blog.js:123-124 | any two non-empty `author` values build the same query |
| BlogRoutes.DisabledNeverListed | routes/Blog.js:120 | a disabled post is never listed |
| BlogRoutes.EveryEligiblePostIsOnSomePage | routes/Blog.js:145-149 | every eligible post is on some page of the listing |
| BlogRoutes.ListPostsOnPage | routes/Blog.js:140-149 | choosing a page only moves the window over the same ordered candidates |
| BlogRoutes.RateComment | routes/Blog.js:162-188 | 404 if missing, 400 if the caller already has an entry (nothing changed); otherwise exactly one entry for the caller is appended to that post and exactly one comment notification goes to its author |
| UserRoutes.Profile | routes/User.js:10-14 | always 200; the caller's fields without the password, or null when the caller is gone |
| UserRoutes.UpdateThenProfile | routes/User.js:10-28 | reading the profile after an update gives the username and email sent, or the old ones when absent, and every other field as before |
| UserRoutes.UpdateProfile | routes/User.js:23-28 | always 200; only the caller's username and email change, each only when present in the body, with no uniqueness check |
| UserRoutes.UpdateProfileCanDuplicateNames | routes/User.js:27 | renaming to another user's name leaves two users with that name |
| UserRoutes.FollowUser | routes/User.js:37-63 | self-follow, then an existing edge, then a missing target (500), then an admin target are refused with nothing written; a success adds exactly one edge and one follow notification for the target |
| UserRoutes.FollowTwice | routes/User.js:44-47 | a second identical follow is refused and changes nothing |
| UserRoutes.Shape | routes/User.js:76-85 | follow entries lose their postId field; comment entries carry the post's id and title, or null when the post is gone |
| UserRoutes.Unread | routes/User.js:74 | exactly the recipient's unread notifications, each once per stored copy |
| UserRoutes.Notifications | routes/User.js:72-86 | 404 exactly when the caller has no unread notification; otherwise the rows are the shapes of a rearrangement of the caller's unread notifications (each shaped once per stored copy), newest first |
| UserRoutes.ShapedNewestFirst | routes/User.js:74-85 | the response rows are as many as the caller's unread notifications, each the shape of one of them, newest first, with follow rows carrying no post |
| UserRoutes.UnreadIsListed | routes/User.js:74-86 | any unread notification appears in its recipient's response |
| UserRoutes.FeedOrder | routes/User.js:97-104 | exactly the enabled posts of followed authors, each once per stored copy, newest first |
| UserRoutes.Following | routes/User.js:97-98 | the ids the user follows, from the follow edges whose follower is the user |
| UserRoutes.InFeed | routes/User.js:102 | `{ author: { $in: following }, isDisabled: false }` |
| UserRoutes.Feed | routes/User.js:95-110 | 404 exactly when the offset `(page-1)*size` is past the feed order; otherwise the window of the feed order at that offset, `min(size, rest)` posts, with author names |
| UserRoutes.FeedPageContents | routes/User.js:102-106 | every feed page holds enabled posts of followed authors, newest first |
| UserRoutes.FeedOrderEmpty | routes/User.js:102 | with no enabled post by a followed author the feed order is empty |
| UserRoutes.EveryFeedPostIsOnSomePage | routes/User.js:97-106 | every enabled post of a followed author is on some page of the feed |
| AdminRoutes.ListUsers | routes/Admin.js:8-14 | 401 for a non-admin; otherwise exactly the users with role 'user', without passwords, one row per such stored user |
| AdminRoutes.BlockThenListUsers | routes/Admin.js:8-27 | after a block the admin's user listing has the same rows in the same order, the blocked user's row now disabled |
| AdminRoutes.Views | routes/Admin.js:10 | `.select('-password')` maps each user to its view, in order |
| AdminRoutes.BlockUser | routes/Admin.js:23-27 | sets isDisabled on that user only, and answers 200 even for an unknown id |
| AdminRoutes.BlockIdempotent | routes/Admin.js:26 | blocking twice is blocking once |
| AdminRoutes.BlockUnknownUser | routes/Admin.js:26-27 | blocking an unknown id changes nothing and still answers 200 |
| AdminRoutes.DisablePost | routes/Admin.js:36-40 | sets isDisabled on that post only; always 200 for an admin |
| AdminRoutes.DisableIdempotent | routes/Admin.js:39 | disabling twice is disabling once |
| AdminRoutes.Rows | routes/Admin.js:67-73 | `$project` maps each post to its row, in order |
| AdminRoutes.RowOf | routes/Admin.js:67-73 | the projected row: id, title, the author's username, created_at, average rating and the disabled flag |
| AdminRoutes.Resolvable | routes/Admin.js:56-65 | `$lookup` + `$unwind` keep exactly the posts whose author exists, each once per stored copy |
| AdminRoutes.AuthorResolves | routes/Admin.js:56-65 | `$unwind` keeps the post: its author id finds a stored user |
| AdminRoutes.Joined | routes/Admin.js:56-73 | as many rows as resolvable posts, each the row of a stored post whose author resolves, every such post's row present, disabled posts included |
| AdminRoutes.AdminOrder | routes/Admin.js:56-76 | one row per resolvable post, newest first, none lost |
| AdminRoutes.AdminPosts | routes/Admin.js:49-86 | 401 for a non-admin; otherwise always 200 with the `$skip`/`$limit` window of the admin order for the requested page, at most pageSize rows of resolvable posts, newest first |
| AdminRoutes.AdminPageOrdered | routes/Admin.js:76-82 | every admin page is newest first |
| AdminRoutes.AdminPageRows | routes/Admin.js:63-82 | every admin page holds only rows of stored posts whose author resolves |
| AdminRoutes.EveryResolvablePostIsOnSomeAdminPage | routes/Admin.js:54-85 | every post whose author resolves, disabled or not, is on some admin page |
| AdminRoutes.AdminPost | routes/Admin.js:95-132 | 404 exactly when no post has the id with a resolvable author; otherwise that post's detail with its average rating |
| AdminRoutes.DetailOf | routes/Admin.js:116-124 | the projected detail: title, the author's username, created_at, feedback, the disabled flag and the average rating |
| AdminRoutes.AdminPostShows | routes/Admin.js:101-132 | a stored post whose author resolves is found by the admin view |
| Invariants.RegisterKeepsValid | routes/Login.js:13-31 | register keeps every store invariant |
| Invariants.UpdateProfileKeepsValid | routes/User.js:27 | profile update keeps every store invariant |
| Invariants.BlockUserKeepsValid | routes/Admin.js:26 | block keeps every store invariant |
| Invariants.CreatePostKeepsValid | routes/Blog.js:13-20 | create keeps every store invariant |
| Invariants.UpdatePostKeepsValid | routes/Blog.js:80-83 | update keeps every store invariant |
| Invariants.DeletePostKeepsValid | routes/Blog.js:104 | delete keeps every store invariant |
| Invariants.RateCommentKeepsValid | routes/Blog.js:172-187 | rate-comment keeps one feedback entry per user and well-formed notifications |
| Invariants.AppendNewRaterKeepsUnique | routes/Blog.js:172-180 | an entry by a user who has none keeps raters unique |
| Invariants.FollowKeepsValid | routes/User.js:41-62 | follow keeps edges free of self-loops and duplicates, pointing at plain users |
| Invariants.DisablePostKeepsValid | routes/Admin.js:39 | disable keeps every store invariant |
| Invariants.PlainUsersSurviveAppend | routes/Login.js:31 | a new user leaves every follow target resolvable |
| Invariants.PlainUsersSurviveRewrite | routes/Admin.js:26 | a rewrite keeping ids and roles leaves every follow target resolvable |
| Scenarios.CommentNotifiesAuthorOnce | routes/Blog.js:172-187 | after B rates A's post, A's notifications hold a comment entry with the post's title, and B's second rating is refused |
| Scenarios.FollowNotifiesTarget | routes/User.js:44-62 | after B follows A, A's notifications hold a follow entry naming B with no post, and a second follow is refused |
| Scenarios.DisabledPostNotListed | routes/Blog.js:120 | after a disable, no listing query shows that post |
| Scenarios.DisabledPostAdminVisible | routes/Admin.js:101-132 | after a disable, the admin single-post view still shows that post, flagged |
| Scenarios.DisableFlagsEveryCopy | routes/Admin.js:39 | after a disable, every post with that id is flagged |
| Scenarios.FindByNameAfterRewrite | routes/Login.js:45 | a rewrite that keeps usernames keeps which user a name lookup finds |
| Scenarios.BlockedUserCannotLogIn | routes/Login.js:49-55 | after a block, the user's right password gives 'User is disabled' |
| Scenarios.CreateThenGet | routes/Blog.js:13-21 | a created post is read back by its new id exactly as saved |
| Scenarios.UpdateThenGet | routes/Blog.js:80-84 | after an update, reading the post gives exactly the new fields |
| Scenarios.DeleteThenGet | routes/Blog.js:104 | after a delete, reading that id gives 404 |

## Left out

- The authentication middleware in server.js is not part of this model. It verifies the JWT, and its `User.findOne` is never awaited, so its "No User Exists" and "User is disabled" checks never fire. Each request carries its token claims directly, and admin handlers refuse a non-admin role with 401.
- modals/User.js is not part of this model. The user record's fields (username, email, password, role, isDisabled) are inferred from the routes that read and write them.
- bcrypt and JSON web tokens: the hash is a function parameter, and the token is the pair of claims it signs.
- Regular-expression semantics: a pattern is matched as a literal substring with ASCII-only case folding. The database's `i` flag also folds non-ASCII letters ('É' matches 'é' there, not here). Metacharacters, invalid patterns and the throw they cause are not modelled.
- The arbitrary `sortBy` field of the listing: every sort is on the creation timestamp.
- Seqs.SortBy: posts with equal timestamps are put in one fixed order, the same for every request, and every page window is taken from that order. The database does not promise a stable order for ties across `.skip`/`.limit` requests, so with tied timestamps a post can appear on two pages and another on none. The all-pages lemmas (BlogRoutes.EveryEligiblePostIsOnSomePage, BlogRoutes.EveryPostIsOnSomeAuthorPage, UserRoutes.EveryFeedPostIsOnSomePage, AdminRoutes.EveryResolvablePostIsOnSomeAdminPage) and Seqs.ConsecutivePages, read across requests, hold only under this fixed tie order.
- Negative page parameters and `parseInt` details beyond the `|| default` fallback: page parameters are natural numbers.
- Floating-point ratings: ratings are integers, and the average is the exact real quotient.
- Cast errors (a malformed ObjectId, a non-numeric rating) and database failures that reach the generic 500 catch blocks, except the three 500s that follow from the data: required-field validation on create, required-field validation on update, and following a missing user.
- Updating a post with no category stores '' in this model. Mongoose would unset the field.
- UserRoutes.UpdateProfile: a username or email absent from the body leaves the stored field unchanged, as Mongoose does when it strips `undefined` keys from an update. A Mongoose version that writes null for such a key instead is not modelled.
- Concurrency: requests run one at a time. The read-then-write races between a guard and its write, such as two simultaneous follows or two ratings, are not modelled. Neither is the non-transactional second write of a notification.
- `populate`/`lean` object shapes: populated authors are `Option<string>` names, and a comment notification's post is its id and title.

=== FILE: admin_routes.dfy ===
/**
 The `/admin` routes. The admin middleware answers 401 unless the token's
 role is admin, modelled here as the first check of every handler.
 */
module AdminRoutes {
  import opened Types
  import opened Seqs
  import opened BlogModel
  import opened Store
  import opened UserRoutes

  // ---------------------------------------------------------------------------
  // GET /admin/users

  /** Every user whose role is `user`, without passwords, in store order. */
  function ListUsers(s: Store, caller: Claims): (r: Result<seq<UserView>>)
    ensures caller.role != AdminRole ==> r == Failure(Unauthorized)
    ensures caller.role == AdminRole ==> r.Success?
    ensures r.Success? ==>
              && (forall i :: 0 <= i < |r.value| ==>
                    exists u :: u in s.users && u.role == UserRole && r.value[i] == ViewOf(u))
              && (forall u :: u in s.users && u.role == UserRole ==> ViewOf(u) in r.value)
              && (forall i :: 0 <= i < |r.value| ==> r.value[i].role == UserRole)
    ensures r.Success? ==> |r.value| == |Filter(s.users, IsPlain)|
  {
    if caller.role != AdminRole then Failure(Unauthorized)
    else
      Success(Views(Filter(s.users, IsPlain)))
  }

  /** The `{ role: 'user' }` filter of the user listing. */
  predicate IsPlain(u: User) {
    u.role == UserRole
  }

  /** `.select('-password')` of each user, keeping the order. */
  function Views(users: seq<User>): (r: seq<UserView>)
    ensures |r| == |users|
    ensures forall i :: 0 <= i < |r| ==> r[i] == ViewOf(users[i])
    ensures forall u :: u in users ==> ViewOf(u) in r
  {
    var r := seq(|users|, i requires 0 <= i < |users| => ViewOf(users[i]));
    assert forall u :: u in users ==> ViewOf(u) in r by {
      forall u | u in users ensures ViewOf(u) in r {
        var k :| 0 <= k < |users| && users[k] == u;
        assert r[k] == ViewOf(u);
      }
    }
    r
  }

  // ---------------------------------------------------------------------------
  // PUT /admin/users/block/:userId

  /**
   `findByIdAndUpdate(userId, { isDisabled: true })`: flags that user only,
   and answers 200 even when the id matches no one.
   */
  function BlockUser(s: Store, caller: Claims, userId: UserId): (r: Step)
    ensures caller.role != AdminRole ==> r == Step(Fail(Unauthorized), s)
    ensures caller.role == AdminRole ==> r.outcome == Done
    ensures r.store.(users := s.users) == s
    ensures |r.store.users| == |s.users|
    ensures forall i :: 0 <= i < |s.users| ==>
              r.store.users[i] == if caller.role == AdminRole && s.users[i].id == userId
                                  then s.users[i].(isDisabled := true)
                                  else s.users[i]
  {
    if caller.role != AdminRole then Step(Fail(Unauthorized), s)
    else
      var users := seq(|s.users|, i requires 0 <= i < |s.users| =>
        if s.users[i].id == userId then s.users[i].(isDisabled := true) else s.users[i]);
      Step(Done, s.(users := users))
  }

  /** The user `BlockUser` leaves at the same position. */
  function Flagged(u: User, userId: UserId): User {
    if u.id == userId then u.(isDisabled := true) else u
  }

  /**
   A blocked user stays in the admin's user listing, at the same position,
   now shown as disabled; every other row is unchanged.
   */
  lemma BlockThenListUsers(s: Store, caller: Claims, userId: UserId)
    requires caller.role == AdminRole
    ensures var before := ListUsers(s, caller).value;
            var after := ListUsers(BlockUser(s, caller, userId).store, caller).value;
            && |after| == |before|
            && forall i :: 0 <= i < |before| ==>
                 after[i] == if before[i].id == userId then before[i].(isDisabled := true) else before[i]
  {
    var flag := (u: User) => Flagged(u, userId);
    assert BlockUser(s, caller, userId).store.users == Map(s.users, flag);
    FilterMap(s.users, IsPlain, flag);
  }

  /** Blocking twice is the same as blocking once. */
  lemma BlockIdempotent(s: Store, caller: Claims, userId: UserId)
    ensures var once := BlockUser(s, caller, userId);
            BlockUser(once.store, caller, userId) == once
  {
  }

  /** Blocking an id no user carries changes nothing, and still reports success. */
  lemma BlockUnknownUser(s: Store, caller: Claims, userId: UserId)
    requires caller.role == AdminRole
    requires FindUser(s.users, userId).None?
    ensures BlockUser(s, caller, userId) == Step(Done, s)
  {
    var r := BlockUser(s, caller, userId);
    assert r.store.users == s.users;
  }

  // ---------------------------------------------------------------------------
  // PUT /admin/blog-posts/disable/:postId

  /** `findByIdAndUpdate(postId, { isDisabled: true })`: flags that post only; always 200. */
  function DisablePost(s: Store, caller: Claims, postId: PostId): (r: Step)
    ensures caller.role != AdminRole ==> r == Step(Fail(Unauthorized), s)
    ensures caller.role == AdminRole ==> r.outcome == Done
    ensures r.store.(posts := s.posts) == s
    ensures |r.store.posts| == |s.posts|
    ensures forall i :: 0 <= i < |s.posts| ==>
              r.store.posts[i] == if caller.role == AdminRole && s.posts[i].id == postId
                                  then s.posts[i].(isDisabled := true)
                                  else s.posts[i]
  {
    if caller.role != AdminRole then Step(Fail(Unauthorized), s)
    else
      var posts := seq(|s.posts|, i requires 0 <= i < |s.posts| =>
        if s.posts[i].id == postId then s.posts[i].(isDisabled := true) else s.posts[i]);
      Step(Done, s.(posts := posts))
  }

  lemma DisableIdempotent(s: Store, caller: Claims, postId: PostId)
    ensures var once := DisablePost(s, caller, postId);
            DisablePost(once.store, caller, postId) == once
  {
  }

  // ---------------------------------------------------------------------------
  // GET /admin/blog-posts

  /** One row of the admin listing: `$project` after `$lookup` + `$unwind` of the author. */
  datatype AdminRow = AdminRow(
    id: PostId,
    title: string,
    author: string,
    createdAt: nat,
    averageRating: Option<real>,
    isDisabled: bool)

  function RowCreatedAt(row: AdminRow): nat {
    row.createdAt
  }

  /** `$unwind` drops a post whose author lookup found nobody. */
  predicate AuthorResolves(users: seq<User>, p: BlogPost) {
    FindUser(users, p.author).Some?
  }

  function RowOf(users: seq<User>, p: BlogPost): AdminRow
    requires AuthorResolves(users, p)
  {
    AdminRow(p.id, p.title, FindUser(users, p.author).value.username, p.createdAt,
             AverageRating(p.feedback), p.isDisabled)
  }

  /** `row` is the joined row of some stored post whose author resolves. */
  predicate RowOfStoredPost(s: Store, row: AdminRow) {
    exists p :: p in s.posts && AuthorResolves(s.users, p) && row == RowOf(s.users, p)
  }

  /** `$project` of each post of `kept`, in order. */
  function Rows(users: seq<User>, kept: seq<BlogPost>): (r: seq<AdminRow>)
    requires forall i :: 0 <= i < |kept| ==> AuthorResolves(users, kept[i])
    ensures |r| == |kept|
    ensures forall i :: 0 <= i < |r| ==> r[i] == RowOf(users, kept[i])
  {
    seq(|kept|, i requires 0 <= i < |kept| => RowOf(users, kept[i]))
  }

  /** The posts whose author resolves, i.e. what survives `$unwind`. */
  function Resolvable(s: Store): (r: seq<BlogPost>)
    ensures forall i :: 0 <= i < |r| ==> r[i] in s.posts && AuthorResolves(s.users, r[i])
    ensures forall p :: p in s.posts && AuthorResolves(s.users, p) ==> p in r
    ensures KeepsCounts(s.posts, (p: BlogPost) => AuthorResolves(s.users, p), r)
  {
    Filter(s.posts, (p: BlogPost) => AuthorResolves(s.users, p))
  }

  /** The joined rows, one per post whose author resolves, disabled posts included. */
  function Joined(s: Store): (r: seq<AdminRow>)
    ensures |r| == |Resolvable(s)|
    ensures forall i :: 0 <= i < |r| ==> RowOfStoredPost(s, r[i])
    ensures forall p :: p in s.posts && AuthorResolves(s.users, p) ==> RowOf(s.users, p) in r
  {
    var kept := Resolvable(s);
    JoinedRows(s, kept);
    Rows(s.users, kept)
  }

  lemma JoinedRows(s: Store, kept: seq<BlogPost>)
    requires forall i :: 0 <= i < |kept| ==> kept[i] in s.posts && AuthorResolves(s.users, kept[i])
    requires forall p :: p in s.posts && AuthorResolves(s.users, p) ==> p in kept
    ensures forall i :: 0 <= i < |Rows(s.users, kept)| ==> RowOfStoredPost(s, Rows(s.users, kept)[i])
    ensures forall p :: p in s.posts && AuthorResolves(s.users, p) ==> RowOf(s.users, p) in Rows(s.users, kept)
  {
    var rows := Rows(s.users, kept);
    forall i | 0 <= i < |rows| ensures RowOfStoredPost(s, rows[i]) {
      assert kept[i] in s.posts && rows[i] == RowOf(s.users, kept[i]);
    }
    forall p | p in s.posts && AuthorResolves(s.users, p) ensures RowOf(s.users, p) in rows {
      var k :| 0 <= k < |kept| && kept[k] == p;
      assert rows[k] == RowOf(s.users, p);
    }
  }

  /** The rows the admin listing pages through: every resolvable post, newest first. */
  function AdminOrder(s: Store): (r: seq<AdminRow>)
    ensures |r| == |Resolvable(s)|
    ensures SortedBy(r, RowCreatedAt, Descending)
    ensures forall i :: 0 <= i < |r| ==> RowOfStoredPost(s, r[i])
    ensures forall p :: p in s.posts && AuthorResolves(s.users, p) ==> RowOf(s.users, p) in r
  {
    var rows := Joined(s);
    var sorted := SortBy(rows, RowCreatedAt, Descending);
    forall i | 0 <= i < |sorted| ensures RowOfStoredPost(s, sorted[i]) {
      SortByMembership(rows, RowCreatedAt, Descending, sorted[i]);
      var k :| 0 <= k < |rows| && rows[k] == sorted[i];
    }
    forall p | p in s.posts && AuthorResolves(s.users, p) ensures RowOf(s.users, p) in sorted {
      SortByMembership(rows, RowCreatedAt, Descending, RowOf(s.users, p));
    }
    sorted
  }

  /**
   GET /admin/blog-posts: one page of the joined rows, newest first, always
   200. Disabled posts are listed; posts whose author is gone are not.
   */
  function AdminPosts(s: Store, caller: Claims, page: Option<nat>, pageSize: Option<nat>)
    : (r: Result<seq<AdminRow>>)
    ensures caller.role != AdminRole ==> r == Failure(Unauthorized)
    ensures caller.role == AdminRole ==> r.Success?
    ensures r.Success? ==> r.value == Page(AdminOrder(s), PagingOf(page, pageSize))
    ensures r.Success? ==>
              && |r.value| <= PagingOf(page, pageSize).pageSize
              && (forall i :: 0 <= i < |r.value| ==> RowOfStoredPost(s, r.value[i]))
              && (forall i, j :: 0 <= i < j < |r.value| ==> r.value[i].createdAt >= r.value[j].createdAt)
  {
    if caller.role != AdminRole then Failure(Unauthorized)
    else
      var p := PagingOf(page, pageSize);
      AdminPageOrdered(s, p);
      AdminPageRows(s, p);
      Success(Page(AdminOrder(s), p))
  }

  /** Every page of the admin order is newest first. */
  lemma AdminPageOrdered(s: Store, p: Paging)
    requires p.page >= 1 && p.pageSize >= 1
    ensures var rows := Page(AdminOrder(s), p);
            forall i, j :: 0 <= i < j < |rows| ==> rows[i].createdAt >= rows[j].createdAt
  {
    PageKeepsOrder(AdminOrder(s), p, RowCreatedAt, Descending);
  }

  /** Every page of the admin order holds only rows of stored posts. */
  lemma AdminPageRows(s: Store, p: Paging)
    requires p.page >= 1 && p.pageSize >= 1
    ensures var rows := Page(AdminOrder(s), p);
            forall i :: 0 <= i < |rows| ==> RowOfStoredPost(s, rows[i])
  {
    var order := AdminOrder(s);
    PageKeepsAll(order, p, row => RowOfStoredPost(s, row));
  }

  // ---------------------------------------------------------------------------
  // GET /admin/blog-posts/:postId

  datatype AdminPostView = AdminPostView(
    id: PostId,
    title: string,
    author: string,
    createdAt: nat,
    feedback: seq<Feedback>,
    isDisabled: bool,
    averageRating: Option<real>)

  function DetailOf(users: seq<User>, p: BlogPost): AdminPostView
    requires AuthorResolves(users, p)
  {
    AdminPostView(p.id, p.title, FindUser(users, p.author).value.username, p.createdAt,
                  p.feedback, p.isDisabled, AverageRating(p.feedback))
  }

  /**
   GET /admin/blog-posts/:postId: `$match` on the id, join the author, and
   answer the first result; 404 when the id matches nothing or the matched
   post's author is gone. Disabled posts are still shown.
   */
  function AdminPost(s: Store, caller: Claims, postId: PostId): (r: Result<AdminPostView>)
    ensures caller.role != AdminRole ==> r == Failure(Unauthorized)
    ensures caller.role == AdminRole ==>
              (r.Failure? <==> forall p :: p in s.posts && p.id == postId ==> !AuthorResolves(s.users, p))
    ensures r.Failure? && caller.role == AdminRole ==> r.error == PostNotFound
    ensures r.Success? ==>
              exists p :: p in s.posts && p.id == postId && AuthorResolves(s.users, p)
                          && r.value == DetailOf(s.users, p)
  {
    if caller.role != AdminRole then Failure(Unauthorized)
    else
      var matched := Filter(s.posts, (p: BlogPost) => p.id == postId && AuthorResolves(s.users, p));
      if |matched| == 0 then Failure(PostNotFound)
      else
        assert matched[0] in s.posts;
        Success(DetailOf(s.users, matched[0]))
  }

  /** A stored post whose author resolves is shown by the admin single-post view. */
  lemma AdminPostShows(s: Store, caller: Claims, k: nat)
    requires caller.role == AdminRole
    requires k < |s.posts| && AuthorResolves(s.users, s.posts[k])
    ensures AdminPost(s, caller, s.posts[k].id).Success?
  {
    assert s.posts[k] in s.posts;
  }

  /**
   Every post whose author resolves, disabled or not, is shown on some page
   of the admin listing.
   */
  lemma EveryResolvablePostIsOnSomeAdminPage(s: Store, caller: Claims, pageSize: Option<nat>, p: BlogPost)
    requires caller.role == AdminRole
    requires p in s.posts && AuthorResolves(s.users, p)
    ensures exists n: nat, i :: n >= 1 && 0 <= i < |AdminPosts(s, caller, Some(n), pageSize).value|
              && AdminPosts(s, caller, Some(n), pageSize).value[i] == RowOf(s.users, p)
  {
    var size := PagingOf(None, pageSize).pageSize;
    var n, i := PlaceOnPage(AdminOrder(s), size, RowOf(s.users, p));
    assert PagingOf(Some(n), pageSize) == Paging(n, size);
    assert AdminPosts(s, caller, Some(n), pageSize).value == Page(AdminOrder(s), Paging(n, size));
  }
}

=== FILE: blog_model.dfy ===
/**
 The BlogPost document and its embedded feedback entries, with the schema's
 required fields and defaults, and the derived average rating.
 */
module BlogModel {
  import opened Types
  import opened Seqs

  /** One rating/comment entry; `rating` defaults to 0 and `comment` to ''. */
  datatype Feedback = Feedback(user: UserId, rating: int, comment: string, createdOn: nat)

  datatype BlogPost = BlogPost(
    id: PostId,
    title: string,
    content: string,
    category: string,
    author: UserId,
    feedback: seq<Feedback>,
    createdAt: nat,
    isDisabled: bool)

  /** The sort key of every post listing (`created_at`). */
  function CreatedAt(p: BlogPost): nat {
    p.createdAt
  }

  /** `title` and `content` are required strings: missing or empty fails validation. */
  predicate HasRequiredFields(title: string, content: string) {
    title != "" && content != ""
  }

  /**
   A freshly saved post: `category` defaults to '', feedback starts empty, the
   post is enabled and stamped with the creation time.
   */
  function NewPost(id: PostId, title: string, content: string, category: Option<string>,
                   author: UserId, now: nat): (p: BlogPost)
    ensures p.id == id && p.author == author && p.title == title && p.content == content
    ensures category.None? ==> p.category == ""
    ensures category.Some? ==> p.category == category.value
    ensures p.feedback == [] && !p.isDisabled && p.createdAt == now
  {
    BlogPost(id, title, content, category.GetOr(""), author, [], now, false)
  }

  /** A feedback entry as pushed by rate-comment, with the schema's defaults filled in. */
  function NewFeedback(user: UserId, rating: Option<int>, comment: Option<string>, now: nat): (f: Feedback)
    ensures f.user == user && f.createdOn == now
    ensures rating.None? ==> f.rating == 0
    ensures rating.Some? ==> f.rating == rating.value
    ensures comment.None? ==> f.comment == ""
    ensures comment.Some? ==> f.comment == comment.value
  {
    Feedback(user, rating.GetOr(0), comment.GetOr(""), now)
  }

  /** `feedback.find(f => f.user === userId)` finds an entry. */
  predicate HasRated(feedback: seq<Feedback>, user: UserId) {
    exists i :: 0 <= i < |feedback| && feedback[i].user == user
  }

  /** No user has two feedback entries on the same post. */
  predicate UniqueRaters(feedback: seq<Feedback>) {
    forall i, j :: 0 <= i < j < |feedback| ==> feedback[i].user != feedback[j].user
  }

  function SumRatings(feedback: seq<Feedback>): int {
    if |feedback| == 0 then 0 else feedback[0].rating + SumRatings(feedback[1..])
  }

  /**
   `$avg` over `feedback.rating`: the arithmetic mean, and null (None) when
   the post has no feedback at all.
   */
  function AverageRating(feedback: seq<Feedback>): (r: Option<real>)
    ensures r.None? <==> |feedback| == 0
    ensures r.Some? ==> r.value * (|feedback| as real) == SumRatings(feedback) as real
  {
    if |feedback| == 0 then None
    else Some(SumRatings(feedback) as real / |feedback| as real)
  }

  lemma {:induction false} SumAppend(feedback: seq<Feedback>, f: Feedback)
    ensures SumRatings(feedback + [f]) == SumRatings(feedback) + f.rating
  {
    if |feedback| == 0 {
      assert feedback + [f] == [f];
    } else {
      assert (feedback + [f])[1..] == feedback[1..] + [f];
      SumAppend(feedback[1..], f);
    }
  }

  lemma {:induction false} SumBounds(feedback: seq<Feedback>, lo: int, hi: int)
    requires forall i :: 0 <= i < |feedback| ==> lo <= feedback[i].rating <= hi
    ensures |feedback| * lo <= SumRatings(feedback) <= |feedback| * hi
  {
    if |feedback| > 0 {
      SumBounds(feedback[1..], lo, hi);
    }
  }

  /** The average lies between the smallest and the largest rating given. */
  lemma AverageWithinRatings(feedback: seq<Feedback>, lo: int, hi: int)
    requires |feedback| > 0
    requires forall i :: 0 <= i < |feedback| ==> lo <= feedback[i].rating <= hi
    ensures lo as real <= AverageRating(feedback).value <= hi as real
  {
    SumBounds(feedback, lo, hi);
    var n := |feedback|;
    var sum := SumRatings(feedback);
    QuotientBetween(sum, n, lo, hi);
  }

  lemma QuotientBetween(sum: int, n: int, lo: int, hi: int)
    requires n > 0 && n * lo <= sum <= n * hi
    ensures lo as real <= sum as real / n as real <= hi as real
  {
    var q := sum as real / n as real;
    assert q * n as real == sum as real;
    assert (n * lo) as real == n as real * lo as real;
    assert (n * hi) as real == n as real * hi as real;
    assert (q - lo as real) * n as real >= 0.0;
    assert (hi as real - q) * n as real >= 0.0;
  }

  /** Ratings 3 and 5 average to 4; no feedback averages to null, not 0. */
  lemma AverageExamples(u: UserId, v: UserId)
    ensures AverageRating([Feedback(u, 3, "", 0), Feedback(v, 5, "", 0)]) == Some(4.0)
    ensures AverageRating([]) == None
  {
    var fb := [Feedback(u, 3, "", 0), Feedback(v, 5, "", 0)];
    assert fb[1..][1..] == [];
    assert SumRatings(fb[1..]) == 5;
    assert SumRatings(fb) == 8;
  }

  /**
   `BlogPost.findById`: the first post carrying `id` (ids are unique in a
   valid store, so it is the only one).
   */
  function FindPost(posts: seq<BlogPost>, id: PostId): (r: Option<BlogPost>)
    ensures r.None? <==> forall i :: 0 <= i < |posts| ==> posts[i].id != id
    ensures r.Some? ==> exists i :: 0 <= i < |posts| && posts[i] == r.value
                          && forall j :: 0 <= j < i ==> posts[j].id != id
    ensures r.Some? ==> r.value.id == id
  {
    First(posts, (p: BlogPost) => p.id == id)
  }
}

=== FILE: blog_routes.dfy ===
/**
 The `/blog` routes: create, the unfiltered all-of-author listing, get,
 update and delete by id, the filtered/sorted/paginated listing, and
 rate-comment. Every request carries the caller's token claims.
 */
module BlogRoutes {
  import opened Types
  import opened Seqs
  import opened Text
  import opened BlogModel
  import opened NotificationModel
  import opened Store

  // ---------------------------------------------------------------------------
  // POST /blog/create

  /**
   Saves a post authored by the caller with empty feedback. Mongoose rejects
   a missing title or content, which the handler reports as a 500.
   */
  function CreatePost(s: Store, caller: Claims, title: string, content: string,
                      category: Option<string>, now: nat): (r: Step)
    ensures !HasRequiredFields(title, content) ==> r == Step(Fail(ValidationFailed), s)
    ensures HasRequiredFields(title, content) ==>
            && r.outcome == Created
            && r.store.users == s.users && r.store.follows == s.follows
            && r.store.notifications == s.notifications
            && r.store.nextId == s.nextId + 1
            && |r.store.posts| == |s.posts| + 1
            && r.store.posts[..|s.posts|] == s.posts
            && var p := r.store.posts[|s.posts|];
               && p.id == s.nextId
               && p.author == caller.userId
               && p.title == title && p.content == content
               && p.category == (if category.Some? then category.value else "")
               && p.feedback == [] && !p.isDisabled && p.createdAt == now
  {
    if !HasRequiredFields(title, content) then Step(Fail(ValidationFailed), s)
    else
      var p := NewPost(s.nextId, title, content, category, caller.userId, now);
      Step(Created, s.(posts := s.posts + [p], nextId := s.nextId + 1))
  }

  // ---------------------------------------------------------------------------
  // GET /blog/all-of-author

  /**
   Despite its name, `find({})` applies no filter at all: every post,
   disabled ones included, newest first, one page of them.
   */
  function AllOfAuthor(s: Store, page: Option<nat>, pageSize: Option<nat>): (r: Result<seq<PostView>>)
    ensures r.Success?
    ensures |r.value| == PageLength(|s.posts|, PagingOf(page, pageSize))
    ensures forall i :: 0 <= i < |r.value| ==>
              r.value[i].post == SortBy(s.posts, CreatedAt, Descending)[Offset(PagingOf(page, pageSize)) + i]
    ensures |r.value| <= PagingOf(page, pageSize).pageSize
    ensures forall i :: 0 <= i < |r.value| ==> r.value[i].post in s.posts
    ensures forall i :: 0 <= i < |r.value| ==>
              r.value[i].authorName == AuthorName(s.users, r.value[i].post.author)
    ensures forall i, j :: 0 <= i < j < |r.value| ==>
              r.value[i].post.createdAt >= r.value[j].post.createdAt
  {
    var sorted := SortBy(s.posts, CreatedAt, Descending);
    PopulatedPage(s.users, sorted, PagingOf(page, pageSize));
    AuthorPageContents(s, PagingOf(page, pageSize));
    Success(Populate(s.users, Page(sorted, PagingOf(page, pageSize))))
  }

  /** Every populated page of all-of-author holds stored posts, newest first. */
  lemma AuthorPageContents(s: Store, p: Paging)
    requires p.page >= 1 && p.pageSize >= 1
    ensures var views := Populate(s.users, Page(SortBy(s.posts, CreatedAt, Descending), p));
            && (forall i :: 0 <= i < |views| ==> views[i].post in s.posts)
            && (forall i, j :: 0 <= i < j < |views| ==> views[i].post.createdAt >= views[j].post.createdAt)
  {
    SortedFromInput(s.posts, CreatedAt, Descending);
    PopulatedPageKeeps(s.users, SortBy(s.posts, CreatedAt, Descending), p, Descending, (q: BlogPost) => q in s.posts);
  }

  // ---------------------------------------------------------------------------
  // GET /blog/:postId

  function GetPost(s: Store, postId: PostId): (r: Result<PostView>)
    ensures r.Failure? <==> FindPost(s.posts, postId).None?
    ensures r.Failure? ==> r.error == PostNotFound
    ensures r.Success? ==> r.value.post == FindPost(s.posts, postId).value
                           && r.value.authorName == AuthorName(s.users, r.value.post.author)
  {
    match FindPost(s.posts, postId)
    case None => Failure(PostNotFound)
    case Some(p) => Success(PostView(p, AuthorName(s.users, p.author)))
  }

  // ---------------------------------------------------------------------------
  // PUT /blog/:postId

  /** The post with its three editable fields replaced. */
  function Edited(p: BlogPost, title: string, content: string, category: Option<string>): BlogPost {
    p.(title := title, content := content, category := category.GetOr(""))
  }

  /**
   Only the author may edit. The post must exist (404), belong to the caller
   (403), and still have a title and content once edited (500); otherwise
   the three fields are replaced on that post.
   */
  function UpdatePost(s: Store, caller: Claims, postId: PostId, title: string, content: string,
                      category: Option<string>): (r: Step)
    ensures FindPost(s.posts, postId).None? ==> r == Step(Fail(PostNotFound), s)
    ensures FindPost(s.posts, postId).Some? && FindPost(s.posts, postId).value.author != caller.userId
            ==> r == Step(Fail(NotAuthor), s)
    ensures FindPost(s.posts, postId).Some? && FindPost(s.posts, postId).value.author == caller.userId
            && !HasRequiredFields(title, content)
            ==> r == Step(Fail(ValidationFailed), s)
    ensures r.outcome != Done ==> r.store == s
    ensures r.outcome == Done <==>
            && FindPost(s.posts, postId).Some?
            && FindPost(s.posts, postId).value.author == caller.userId
            && HasRequiredFields(title, content)
    ensures r.outcome == Done ==>
            && r.store.(posts := s.posts) == s
            && |r.store.posts| == |s.posts|
            && forall i :: 0 <= i < |s.posts| ==>
                 r.store.posts[i] == if s.posts[i].id == postId
                                     then Edited(s.posts[i], title, content, category)
                                     else s.posts[i]
  {
    match FindPost(s.posts, postId)
    case None => Step(Fail(PostNotFound), s)
    case Some(p) =>
      if p.author != caller.userId then Step(Fail(NotAuthor), s)
      else if !HasRequiredFields(title, content) then Step(Fail(ValidationFailed), s)
      else
        var posts := seq(|s.posts|, i requires 0 <= i < |s.posts| =>
          if s.posts[i].id == postId then Edited(s.posts[i], title, content, category) else s.posts[i]);
        Step(Done, s.(posts := posts))
  }

  // ---------------------------------------------------------------------------
  // DELETE /blog/:postId

  /** Same ownership checks as update; a success removes that post and keeps every other. */
  function DeletePost(s: Store, caller: Claims, postId: PostId): (r: Step)
    ensures FindPost(s.posts, postId).None? ==> r == Step(Fail(PostNotFound), s)
    ensures FindPost(s.posts, postId).Some? && FindPost(s.posts, postId).value.author != caller.userId
            ==> r == Step(Fail(NotAuthor), s)
    ensures r.outcome == Done <==>
            FindPost(s.posts, postId).Some? && FindPost(s.posts, postId).value.author == caller.userId
    ensures r.outcome == Done ==>
            && r.store.(posts := s.posts) == s
            && (forall i :: 0 <= i < |r.store.posts| ==>
                  r.store.posts[i] in s.posts && r.store.posts[i].id != postId)
            && (forall i :: 0 <= i < |s.posts| && s.posts[i].id != postId ==> s.posts[i] in r.store.posts)
    ensures r.outcome == Done ==> KeepsCounts(s.posts, (q: BlogPost) => q.id != postId, r.store.posts)
  {
    match FindPost(s.posts, postId)
    case None => Step(Fail(PostNotFound), s)
    case Some(p) =>
      if p.author != caller.userId then Step(Fail(NotAuthor), s)
      else Step(Done, s.(posts := Filter(s.posts, (q: BlogPost) => q.id != postId)))
  }

  // ---------------------------------------------------------------------------
  // GET /blog/  (filtered listing)

  /** Query string of the listing; "" stands for a parameter that is absent or empty. */
  datatype ListQuery = ListQuery(
    author: string,
    title: string,
    category: string,
    sortOrder: string,
    page: Option<nat>,
    pageSize: Option<nat>)

  /** One clause pushed onto the `$or` list. */
  datatype Clause =
    | AuthorIn(ids: set<UserId>)
    | TitleLike(pattern: string)
    | CategoryLike(pattern: string)

  predicate Holds(c: Clause, p: BlogPost) {
    match c
    case AuthorIn(ids) => p.author in ids
    case TitleLike(pattern) => Matches(pattern, p.title)
    case CategoryLike(pattern) => Matches(pattern, p.category)
  }

  /**
   Ids of the users whose username matches `pattern`. The handler passes the
   `title` parameter here, not `author`.
   */
  function MatchingAuthors(users: seq<User>, pattern: string): set<UserId> {
    set u | u in users && Matches(pattern, u.username) :: u.id
  }

  /**
   The `$or` list as the handler builds it: an author clause only when
   `author` is given and some username matches the TITLE pattern, then a
   title clause, then a category clause, each only when its parameter is given.
   */
  function Clauses(users: seq<User>, q: ListQuery): (r: seq<Clause>)
    ensures |r| <= 3
    ensures forall ids :: AuthorIn(ids) in r <==>
              q.author != "" && ids == MatchingAuthors(users, q.title) && ids != {}
    ensures forall x :: TitleLike(x) in r <==> q.title != "" && x == q.title
    ensures forall x :: CategoryLike(x) in r <==> q.category != "" && x == q.category
  {
    var ids := MatchingAuthors(users, q.title);
    var byAuthor := if q.author != "" && ids != {} then [AuthorIn(ids)] else [];
    var byTitle := if q.title != "" then [TitleLike(q.title)] else [];
    var byCategory := if q.category != "" then [CategoryLike(q.category)] else [];
    byAuthor + byTitle + byCategory
  }

  /**
   `{ $or: clauses, isDisabled: false }`, with the `$or` deleted when empty:
   enabled, and either no clause was pushed or some clause holds.
   */
  predicate Eligible(clauses: seq<Clause>, p: BlogPost) {
    !p.isDisabled && (|clauses| == 0 || exists c :: c in clauses && Holds(c, p))
  }

  /** The matched posts, before sorting. */
  function Candidates(s: Store, q: ListQuery): (r: seq<BlogPost>)
    ensures forall i :: 0 <= i < |r| ==> r[i] in s.posts && Eligible(Clauses(s.users, q), r[i])
    ensures forall p :: p in s.posts && Eligible(Clauses(s.users, q), p) ==> p in r
    ensures KeepsCounts(s.posts, (p: BlogPost) => Eligible(Clauses(s.users, q), p), r)
  {
    var clauses := Clauses(s.users, q);
    Filter(s.posts, (p: BlogPost) => Eligible(clauses, p))
  }

  /** The matched posts in the requested order (`created_at`, ascending unless 'desc'). */
  function Ordered(s: Store, q: ListQuery): (r: seq<BlogPost>)
    ensures SortedBy(r, CreatedAt, DirectionOf(q.sortOrder))
    ensures forall p :: p in r <==> p in Candidates(s, q)
    ensures multiset(r) == multiset(Candidates(s, q))
  {
    var r := SortBy(Candidates(s, q), CreatedAt, DirectionOf(q.sortOrder));
    forall p ensures p in r <==> p in Candidates(s, q) {
      SortByMembership(Candidates(s, q), CreatedAt, DirectionOf(q.sortOrder), p);
    }
    r
  }

  /**
   GET /blog/. Always 200 (an empty array is not `!blogPosts`): one page of
   the eligible posts, in the requested order, each with its author's name.
   */
  function ListPosts(s: Store, q: ListQuery): (r: Result<seq<PostView>>)
    ensures r.Success?
    ensures |r.value| == PageLength(|Ordered(s, q)|, PagingOf(q.page, q.pageSize))
    ensures forall i :: 0 <= i < |r.value| ==>
              r.value[i].post == Ordered(s, q)[Offset(PagingOf(q.page, q.pageSize)) + i]
    ensures |r.value| <= PagingOf(q.page, q.pageSize).pageSize
    ensures forall i :: 0 <= i < |r.value| ==>
              r.value[i].post in s.posts && Eligible(Clauses(s.users, q), r.value[i].post)
    ensures forall i :: 0 <= i < |r.value| ==>
              r.value[i].authorName == AuthorName(s.users, r.value[i].post.author)
    ensures forall i, j :: 0 <= i < j < |r.value| ==>
              InOrder(r.value[i].post.createdAt, r.value[j].post.createdAt, DirectionOf(q.sortOrder))
  {
    PopulatedPage(s.users, Ordered(s, q), PagingOf(q.page, q.pageSize));
    ListPageContents(s, q, PagingOf(q.page, q.pageSize));
    Success(Populate(s.users, Page(Ordered(s, q), PagingOf(q.page, q.pageSize))))
  }

  /** Every populated page of the ordered candidates holds eligible stored posts, in the requested order. */
  lemma ListPageContents(s: Store, q: ListQuery, p: Paging)
    requires p.page >= 1 && p.pageSize >= 1
    ensures var views := Populate(s.users, Page(Ordered(s, q), p));
            && (forall i :: 0 <= i < |views| ==>
                  views[i].post in s.posts && Eligible(Clauses(s.users, q), views[i].post))
            && (forall i, j :: 0 <= i < j < |views| ==>
                  InOrder(views[i].post.createdAt, views[j].post.createdAt, DirectionOf(q.sortOrder)))
  {
    var order := Ordered(s, q);
    var clauses := Clauses(s.users, q);
    forall i | 0 <= i < |order| ensures order[i] in s.posts && Eligible(clauses, order[i]) {
      var c := Candidates(s, q);
      assert order[i] in c;
      var k :| 0 <= k < |c| && c[k] == order[i];
    }
    PopulatedPageKeeps(s.users, order, p, DirectionOf(q.sortOrder),
                       (b: BlogPost) => b in s.posts && Eligible(clauses, b));
  }

  /**
   What eligibility means in terms of the query: enabled, and either no
   parameter pushed a clause, or the author is among the users matched by
   the title pattern (when `author` is given), or the title matches, or the
   category matches.
   */
  lemma EligibleMeans(users: seq<User>, q: ListQuery, p: BlogPost)
    ensures var ids := MatchingAuthors(users, q.title);
            var none := (q.author == "" || ids == {}) && q.title == "" && q.category == "";
            Eligible(Clauses(users, q), p) <==>
              && !p.isDisabled
              && (|| none
                  || (q.author != "" && p.author in ids)
                  || (q.title != "" && Matches(q.title, p.title))
                  || (q.category != "" && Matches(q.category, p.category)))
  {
    var ids := MatchingAuthors(users, q.title);
    var cs := Clauses(users, q);
    if q.author != "" && p.author in ids {
      assert AuthorIn(ids) in cs && Holds(AuthorIn(ids), p);
    }
    if q.title != "" && Matches(q.title, p.title) {
      assert TitleLike(q.title) in cs && Holds(TitleLike(q.title), p);
    }
    if q.category != "" && Matches(q.category, p.category) {
      assert CategoryLike(q.category) in cs && Holds(CategoryLike(q.category), p);
    }
    if (q.author == "" || ids == {}) && q.title == "" && q.category == "" {
      assert |cs| == 0;
    } else {
      assert |cs| > 0;
    }
  }

  /**
   With no filter parameter the `$or` is dropped rather than left empty:
   every enabled post is eligible, not none.
   */
  lemma NoFilterListsAllEnabled(users: seq<User>, q: ListQuery, p: BlogPost)
    requires q.author == "" && q.title == "" && q.category == ""
    ensures Eligible(Clauses(users, q), p) <==> !p.isDisabled
  {
    EligibleMeans(users, q, p);
  }

  /**
   The value of `author` only acts as an on/off switch: two queries that
   both give some author select the same posts whatever names they give.
   */
  lemma AuthorValueIgnored(users: seq<User>, q: ListQuery, other: string)
    requires q.author != "" && other != ""
    ensures Clauses(users, q) == Clauses(users, q.(author := other))
  {
  }

  /** A disabled post is never listed, whatever the query. */
  lemma DisabledNeverListed(s: Store, q: ListQuery, p: BlogPost)
    requires p.isDisabled
    ensures forall i :: 0 <= i < |ListPosts(s, q).value| ==> ListPosts(s, q).value[i].post != p
  {
  }

  /**
   Every eligible post is listed on some page: the page that holds its
   position in the ordered candidates.
   */
  lemma {:induction false} EveryEligiblePostIsOnSomePage(s: Store, q: ListQuery, p: BlogPost)
    requires p in s.posts && Eligible(Clauses(s.users, q), p)
    ensures exists n: nat, i :: n >= 1 && 0 <= i < |ListPosts(s, q.(page := Some(n))).value|
              && ListPosts(s, q.(page := Some(n))).value[i].post == p
  {
    assert p in Candidates(s, q);
    var size := PagingOf(q.page, q.pageSize).pageSize;
    var n, i := PlaceOnPage(Ordered(s, q), size, p);
    ListPostsOnPage(s, q, n);
    assert ListPosts(s, q.(page := Some(n))).value[i].post == p;
  }

  /** Choosing a page changes nothing but the window taken of the ordered candidates. */
  lemma ListPostsOnPage(s: Store, q: ListQuery, n: nat)
    requires n >= 1
    ensures ListPosts(s, q.(page := Some(n))).value
            == Populate(s.users, Page(Ordered(s, q), Paging(n, PagingOf(q.page, q.pageSize).pageSize)))
  {
    var q' := q.(page := Some(n));
    assert Clauses(s.users, q') == Clauses(s.users, q);
    assert Candidates(s, q') == Candidates(s, q);
    assert Ordered(s, q') == Ordered(s, q);
  }

  // ---------------------------------------------------------------------------
  // PUT /blog/:postId/rate-comment

  /**
   404 for a missing post; 400 when the caller already has an entry, with
   nothing changed; otherwise one entry for the caller is appended to that
   post and one `comment` notification goes to the post's author.
   */
  function RateComment(s: Store, caller: Claims, postId: PostId, rating: Option<int>,
                       comment: Option<string>, now: nat): (r: Step)
    ensures FindPost(s.posts, postId).None? ==> r == Step(Fail(PostNotFound), s)
    ensures FindPost(s.posts, postId).Some? && HasRated(FindPost(s.posts, postId).value.feedback, caller.userId)
            ==> r == Step(Fail(AlreadyRated), s)
    ensures r.outcome == Created <==>
            FindPost(s.posts, postId).Some? && !HasRated(FindPost(s.posts, postId).value.feedback, caller.userId)
    ensures r.outcome == Created ==>
            var p := FindPost(s.posts, postId).value;
            && r.store.users == s.users && r.store.follows == s.follows && r.store.nextId == s.nextId
            && r.store.notifications == s.notifications + [CommentNotice(p.author, postId, now)]
            && |r.store.posts| == |s.posts|
            && forall i :: 0 <= i < |s.posts| ==>
                 r.store.posts[i] == if s.posts[i].id == postId
                                     then s.posts[i].(feedback := s.posts[i].feedback
                                                        + [NewFeedback(caller.userId, rating, comment, now)])
                                     else s.posts[i]
  {
    match FindPost(s.posts, postId)
    case None => Step(Fail(PostNotFound), s)
    case Some(p) =>
      if HasRated(p.feedback, caller.userId) then Step(Fail(AlreadyRated), s)
      else
        var entry := NewFeedback(caller.userId, rating, comment, now);
        var posts := seq(|s.posts|, i requires 0 <= i < |s.posts| =>
          if s.posts[i].id == postId then s.posts[i].(feedback := s.posts[i].feedback + [entry]) else s.posts[i]);
        Step(Created, s.(posts := posts, notifications := s.notifications + [CommentNotice(p.author, postId, now)]))
  }

  /** Every stored post, disabled or not, is shown on some page of all-of-author. */
  lemma EveryPostIsOnSomeAuthorPage(s: Store, pageSize: Option<nat>, p: BlogPost)
    requires p in s.posts
    ensures exists n: nat, i :: n >= 1 && 0 <= i < |AllOfAuthor(s, Some(n), pageSize).value|
              && AllOfAuthor(s, Some(n), pageSize).value[i].post == p
  {
    var sorted := SortBy(s.posts, CreatedAt, Descending);
    SortByMembership(s.posts, CreatedAt, Descending, p);
    var size := PagingOf(None, pageSize).pageSize;
    var n, i := PlaceOnPage(sorted, size, p);
    assert PagingOf(Some(n), pageSize) == Paging(n, size);
    assert AllOfAuthor(s, Some(n), pageSize).value == Populate(s.users, Page(sorted, Paging(n, size)));
    assert AllOfAuthor(s, Some(n), pageSize).value[i].post == p;
  }
}

=== FILE: invariants.dfy ===
/**
 Every write route keeps the store invariants: unique ids, at most one
 admin, posts with their required fields and one feedback entry per user,
 no self or duplicate follow edges, edges only towards plain users, and
 every notification unread and shaped after its type.
 */
module Invariants {
  import opened Types
  import opened Seqs
  import opened BlogModel
  import opened NotificationModel
  import opened Store
  import opened Login
  import opened BlogRoutes
  import opened UserRoutes
  import opened AdminRoutes

  /** Appending a user with a fresh id keeps every existing follow target resolvable. */
  lemma PlainUsersSurviveAppend(users: seq<User>, u: User, id: UserId)
    requires IsPlainUser(users, id)
    ensures IsPlainUser(users + [u], id)
  {
    var i :| 0 <= i < |users| && users[i].id == id && users[i].role == UserRole;
    assert (users + [u])[i] == users[i];
  }

  /** A rewrite of the users that keeps every id and role keeps every plain user. */
  lemma PlainUsersSurviveRewrite(users: seq<User>, users': seq<User>, id: UserId)
    requires |users'| == |users|
    requires forall i :: 0 <= i < |users| ==> users'[i].id == users[i].id && users'[i].role == users[i].role
    requires IsPlainUser(users, id)
    ensures IsPlainUser(users', id)
  {
    var i :| 0 <= i < |users| && users[i].id == id && users[i].role == UserRole;
    assert users'[i].id == id && users'[i].role == UserRole;
  }

  lemma RegisterKeepsValid(s: Store, username: string, email: string, password: string,
                           role: string, hash: string -> string)
    requires Valid(s)
    ensures Valid(Register(s, username, email, password, role, hash).store)
  {
    RegisterKeepsSingleAdmin(s, username, email, password, role, hash);
    var r := Register(s, username, email, password, role, hash);
    if r.outcome == Created {
      var u := r.store.users[|s.users|];
      assert r.store.users == s.users + [u];
      forall i | 0 <= i < |r.store.follows|
        ensures IsPlainUser(r.store.users, r.store.follows[i].following)
      {
        PlainUsersSurviveAppend(s.users, u, s.follows[i].following);
      }
    }
  }

  lemma UpdateProfileKeepsValid(s: Store, caller: Claims, username: Option<string>, email: Option<string>)
    requires Valid(s)
    ensures Valid(UpdateProfile(s, caller, username, email).store)
  {
    var r := UpdateProfile(s, caller, username, email);
    forall i | 0 <= i < |r.store.follows|
      ensures IsPlainUser(r.store.users, r.store.follows[i].following)
    {
      PlainUsersSurviveRewrite(s.users, r.store.users, s.follows[i].following);
    }
    assert forall i :: 0 <= i < |s.users| ==> r.store.users[i].role == s.users[i].role;
  }

  lemma BlockUserKeepsValid(s: Store, caller: Claims, userId: UserId)
    requires Valid(s)
    ensures Valid(BlockUser(s, caller, userId).store)
  {
    var r := BlockUser(s, caller, userId);
    forall i | 0 <= i < |r.store.follows|
      ensures IsPlainUser(r.store.users, r.store.follows[i].following)
    {
      PlainUsersSurviveRewrite(s.users, r.store.users, s.follows[i].following);
    }
  }

  lemma CreatePostKeepsValid(s: Store, caller: Claims, title: string, content: string,
                             category: Option<string>, now: nat)
    requires Valid(s)
    ensures Valid(CreatePost(s, caller, title, content, category, now).store)
  {
    var r := CreatePost(s, caller, title, content, category, now);
    if r.outcome == Created {
      assert r.store.posts == s.posts + [r.store.posts[|s.posts|]];
    }
  }

  lemma UpdatePostKeepsValid(s: Store, caller: Claims, postId: PostId, title: string, content: string,
                             category: Option<string>)
    requires Valid(s)
    ensures Valid(UpdatePost(s, caller, postId, title, content, category).store)
  {
    var r := UpdatePost(s, caller, postId, title, content, category);
    if r.outcome == Done {
      assert forall i :: 0 <= i < |s.posts| ==>
               r.store.posts[i].id == s.posts[i].id && r.store.posts[i].feedback == s.posts[i].feedback;
      assert HasRequiredFields(title, content);
    }
  }

  lemma DeletePostKeepsValid(s: Store, caller: Claims, postId: PostId)
    requires Valid(s)
    ensures Valid(DeletePost(s, caller, postId).store)
  {
    var r := DeletePost(s, caller, postId);
    if r.outcome == Done {
      assert DistinctKeys(s.posts, PostKey);
      FilterKeepsDistinct(s.posts, (q: BlogPost) => q.id != postId, PostKey);
    }
  }

  function PostKey(p: BlogPost): nat {
    p.id
  }

  lemma RateCommentKeepsValid(s: Store, caller: Claims, postId: PostId, rating: Option<int>,
                              comment: Option<string>, now: nat)
    requires Valid(s)
    ensures Valid(RateComment(s, caller, postId, rating, comment, now).store)
  {
    var r := RateComment(s, caller, postId, rating, comment, now);
    if r.outcome == Created {
      var p := FindPost(s.posts, postId).value;
      forall i | 0 <= i < |s.posts| && s.posts[i].id == postId
        ensures UniqueRaters(r.store.posts[i].feedback)
      {
        FindPostAt(s.posts, i);
        AppendNewRaterKeepsUnique(s.posts[i].feedback, NewFeedback(caller.userId, rating, comment, now));
      }
      assert NotificationsWellFormed(r.store.notifications) by {
        assert r.store.notifications == s.notifications + [CommentNotice(p.author, postId, now)];
      }
    }
  }

  /** A feedback entry by someone who has none yet keeps raters unique. */
  lemma AppendNewRaterKeepsUnique(feedback: seq<Feedback>, f: Feedback)
    requires UniqueRaters(feedback) && !HasRated(feedback, f.user)
    ensures UniqueRaters(feedback + [f])
  {
  }

  lemma FollowKeepsValid(s: Store, caller: Claims, target: UserId, now: nat)
    requires Valid(s)
    ensures Valid(FollowUser(s, caller, target, now).store)
  {
    var r := FollowUser(s, caller, target, now);
    if r.outcome == Created {
      var u := FindUser(s.users, target).value;
      var k :| 0 <= k < |s.users| && s.users[k] == u && forall j :: 0 <= j < k ==> s.users[j].id != target;
      assert IsPlainUser(s.users, target);
      var follows := r.store.follows;
      assert follows == s.follows + [FollowEdge(caller.userId, target)];
      forall i, j | 0 <= i < j < |follows| ensures follows[i] != follows[j] {
        if j == |s.follows| {
          assert !HasEdge(s.follows, caller.userId, target);
          assert follows[i] == s.follows[i];
        }
      }
      assert NotificationsWellFormed(r.store.notifications) by {
        assert r.store.notifications == s.notifications + [FollowNotice(target, caller.userId, now)];
      }
    }
  }

  lemma DisablePostKeepsValid(s: Store, caller: Claims, postId: PostId)
    requires Valid(s)
    ensures Valid(DisablePost(s, caller, postId).store)
  {
  }
}

=== FILE: login.dfy ===
/**
 Registration and login (`/user/register`, `/user/login`).

 Password hashing is a parameter `hash`: registration stores `hash(password)`
 and the credential check is `hash(password) == stored`. The token is modelled
 by the claims it signs.
 */
module Login {
  import opened Types
  import opened Store

  /** The role field of the request body; only 'user' and 'admin' are accepted. */
  function ParseRole(role: string): (r: Option<Role>)
    ensures r == Some(UserRole) <==> role == "user"
    ensures r == Some(AdminRole) <==> role == "admin"
  {
    if role == "user" then Some(UserRole)
    else if role == "admin" then Some(AdminRole)
    else None
  }

  /** `User.findOne({ $or: [{ username }, { email }] })` finds someone. */
  predicate Taken(users: seq<User>, username: string, email: string) {
    exists i :: 0 <= i < |users| && (users[i].username == username || users[i].email == email)
  }

  /**
   POST /user/register. Checks run in order: taken username or email, then
   an unknown role, then a second admin; a success appends exactly one
   enabled user carrying the hashed password and a fresh id.
   */
  function Register(s: Store, username: string, email: string, password: string, role: string,
                    hash: string -> string): (r: Step)
    ensures Taken(s.users, username, email) ==> r == Step(Fail(UserExists), s)
    ensures !Taken(s.users, username, email) && ParseRole(role).None? ==> r == Step(Fail(InvalidRole), s)
    ensures !Taken(s.users, username, email) && role == "admin" && HasAdmin(s.users)
            ==> r == Step(Fail(AdminExists), s)
    ensures r.outcome == Created <==>
            !Taken(s.users, username, email) && ParseRole(role).Some?
            && !(role == "admin" && HasAdmin(s.users))
    ensures r.outcome != Created ==> r.store == s
    ensures r.outcome == Created ==>
            r.store == s.(users := s.users + [User(s.nextId, username, email, hash(password),
                                                    ParseRole(role).value, false)],
                          nextId := s.nextId + 1)
  {
    if Taken(s.users, username, email) then Step(Fail(UserExists), s)
    else match ParseRole(role)
      case None => Step(Fail(InvalidRole), s)
      case Some(rl) =>
        if rl == AdminRole && HasAdmin(s.users) then Step(Fail(AdminExists), s)
        else
          var u := User(s.nextId, username, email, hash(password), rl, false);
          Step(Created, s.(users := s.users + [u], nextId := s.nextId + 1))
  }

  /**
   POST /user/login. An unknown username and a wrong password give the same
   'Invalid credentials'; the disabled flag is consulted only once the
   password is right; a success yields exactly the user's id and role.
   */
  function LogIn(s: Store, username: string, password: string, hash: string -> string): (r: Result<Claims>)
    ensures FindUserByName(s.users, username).None? ==> r == Failure(InvalidCredentials)
    ensures FindUserByName(s.users, username).Some? ==>
            var u := FindUserByName(s.users, username).value;
            && (hash(password) != u.password ==> r == Failure(InvalidCredentials))
            && (hash(password) == u.password && u.isDisabled ==> r == Failure(UserDisabled))
            && (hash(password) == u.password && !u.isDisabled ==> r == Success(Claims(u.id, u.role)))
  {
    match FindUserByName(s.users, username)
    case None => Failure(InvalidCredentials)
    case Some(u) =>
      if hash(password) != u.password then Failure(InvalidCredentials)
      else if u.isDisabled then Failure(UserDisabled)
      else Success(Claims(u.id, u.role))
  }

  /** Registering never creates a second admin. */
  lemma RegisterKeepsSingleAdmin(s: Store, username: string, email: string, password: string,
                                 role: string, hash: string -> string)
    requires AtMostOneAdmin(s.users)
    ensures AtMostOneAdmin(Register(s, username, email, password, role, hash).store.users)
  {
    var r := Register(s, username, email, password, role, hash);
    if r.outcome == Created {
      var n := |s.users|;
      forall i, j | 0 <= i < |r.store.users| && 0 <= j < |r.store.users|
          && r.store.users[i].role == AdminRole && r.store.users[j].role == AdminRole
        ensures i == j
      {
        if i == n || j == n {
          assert !HasAdmin(s.users);
        } else {
          assert s.users[i] == r.store.users[i] && s.users[j] == r.store.users[j];
        }
      }
    }
  }

  /**
   A user registered into a store where the name is fresh can log in right
   away with the same password, and the token names the new user.
   */
  lemma RegisterThenLogIn(s: Store, username: string, email: string, password: string,
                          role: string, hash: string -> string)
    requires Register(s, username, email, password, role, hash).outcome == Created
    ensures var r := Register(s, username, email, password, role, hash);
            LogIn(r.store, username, password, hash) == Success(Claims(s.nextId, ParseRole(role).value))
  {
    var r := Register(s, username, email, password, role, hash);
    var users := r.store.users;
    var n := |s.users|;
    assert forall i :: 0 <= i < n ==> s.users[i].username != username;
    assert forall i :: 0 <= i < n ==> users[i] == s.users[i];
    var f := FindUserByName(users, username);
    assert users[n].username == username;
    var k :| 0 <= k < |users| && users[k] == f.value
             && forall j :: 0 <= j < k ==> users[j].username != username;
    assert k == n;
  }
}

=== FILE: notification_model.dfy ===
/**
 The Notification document: a required recipient, a type from the enum
 {follow, comment}, optional post and follower references, an unread flag and
 a creation time.
 */
module NotificationModel {
  import opened Types

  datatype Kind = Follow | Comment

  datatype Notification = Notification(
    user: UserId,
    kind: Kind,
    postId: Option<PostId>,
    followerId: Option<UserId>,
    isRead: bool,
    createdAt: nat)

  /** The sort key of the notifications listing (`createdAt`). */
  function NotifiedAt(n: Notification): nat {
    n.createdAt
  }

  /** What the follow route saves: addressed to the followed user, naming the follower. */
  function FollowNotice(target: UserId, follower: UserId, now: nat): (n: Notification)
    ensures WellFormed(n)
    ensures n.user == target && n.kind == Follow && n.followerId == Some(follower) && n.createdAt == now
  {
    Notification(target, Follow, None, Some(follower), false, now)
  }

  /** What rate-comment saves: addressed to the post's author, naming the post. */
  function CommentNotice(author: UserId, post: PostId, now: nat): (n: Notification)
    ensures WellFormed(n)
    ensures n.user == author && n.kind == Comment && n.postId == Some(post) && n.createdAt == now
  {
    Notification(author, Comment, Some(post), None, false, now)
  }

  /**
   The shape every saved notification has: the reference that matches its type
   is set and the other one is absent; `isRead` keeps its default, false,
   because nothing ever marks a notification read.
   */
  predicate WellFormed(n: Notification) {
    && !n.isRead
    && (n.kind == Follow ==> n.followerId.Some? && n.postId.None?)
    && (n.kind == Comment ==> n.postId.Some? && n.followerId.None?)
  }
}

=== FILE: scenarios.dfy ===
/**
 Properties that span several requests: what a rate-comment or a follow
 leaves in the recipient's notification list, what disabling a post does to
 the public and admin views, and what blocking a user does to their login.
 */
module Scenarios {
  import opened Types
  import opened Seqs
  import opened BlogModel
  import opened NotificationModel
  import opened Store
  import opened Login
  import opened BlogRoutes
  import opened UserRoutes
  import opened AdminRoutes
  import opened Invariants

  /**
   B rates A's post P: 201; A's unread notifications then hold a `comment`
   entry naming P with its title; B rating P again gets 400 and changes nothing.
   */
  lemma CommentNotifiesAuthorOnce(s: Store, b: Claims, i: nat, rating: Option<int>, comment: Option<string>,
                                  now: nat, later: nat)
    requires Valid(s)
    requires i < |s.posts| && !HasRated(s.posts[i].feedback, b.userId)
    ensures var p := s.posts[i];
            var s1 := RateComment(s, b, p.id, rating, comment, now);
            && s1.outcome == Created
            && Notifications(s1.store, Claims(p.author, UserRole)).Success?
            && NotificationView(p.author, Comment, PostTitle(p.id, p.title), None, false, now)
               in Notifications(s1.store, Claims(p.author, UserRole)).value
            && RateComment(s1.store, b, p.id, rating, comment, later) == Step(Fail(AlreadyRated), s1.store)
  {
    var p := s.posts[i];
    FindPostAt(s.posts, i);
    var s1 := RateComment(s, b, p.id, rating, comment, now);
    RateCommentKeepsValid(s, b, p.id, rating, comment, now);
    var entry := NewFeedback(b.userId, rating, comment, now);
    var p1 := s1.store.posts[i];
    assert p1 == p.(feedback := p.feedback + [entry]);
    FindPostAt(s1.store.posts, i);
    var notice := CommentNotice(p.author, p.id, now);
    assert notice in s1.store.notifications by {
      assert s1.store.notifications[|s.notifications|] == notice;
    }
    UnreadIsListed(s1.store, Claims(p.author, UserRole), notice);
    assert Shape(s1.store.posts, notice) == NotificationView(p.author, Comment, PostTitle(p.id, p.title), None, false, now);
    assert HasRated(p1.feedback, b.userId) by {
      assert p1.feedback[|p.feedback|].user == b.userId;
    }
  }

  /**
   B follows A: 201; A's unread notifications then hold a `follow` entry
   with no postId field, naming B; following again gets 400.
   */
  lemma FollowNotifiesTarget(s: Store, b: Claims, a: UserId, now: nat, later: nat)
    requires b.userId != a && !HasEdge(s.follows, b.userId, a)
    requires FindUser(s.users, a).Some? && FindUser(s.users, a).value.role == UserRole
    ensures var s1 := FollowUser(s, b, a, now);
            && s1.outcome == Created
            && Notifications(s1.store, Claims(a, UserRole)).Success?
            && NotificationView(a, Follow, NoPostField, Some(b.userId), false, now)
               in Notifications(s1.store, Claims(a, UserRole)).value
            && FollowUser(s1.store, b, a, later) == Step(Fail(AlreadyFollowing), s1.store)
  {
    var s1 := FollowUser(s, b, a, now);
    var notice := FollowNotice(a, b.userId, now);
    assert s1.store.notifications[|s.notifications|] == notice;
    UnreadIsListed(s1.store, Claims(a, UserRole), notice);
    assert Shape(s1.store.posts, notice) == NotificationView(a, Follow, NoPostField, Some(b.userId), false, now);
    FollowTwice(s, b, a, now, later);
  }

  /** After an admin disables a post, no listing query shows it, whatever the query. */
  lemma DisabledPostNotListed(s: Store, admin: Claims, i: nat, q: ListQuery)
    requires admin.role == AdminRole && i < |s.posts|
    ensures var rows := ListPosts(DisablePost(s, admin, s.posts[i].id).store, q).value;
            forall k :: 0 <= k < |rows| ==> rows[k].post.id != s.posts[i].id
  {
    var id := s.posts[i].id;
    var s1 := DisablePost(s, admin, id).store;
    var rows := ListPosts(s1, q).value;
    forall k | 0 <= k < |rows| ensures rows[k].post.id != id {
      var p := rows[k].post;
      assert p in s1.posts && !p.isDisabled;
      var m :| 0 <= m < |s1.posts| && s1.posts[m] == p;
    }
  }

  /**
   After an admin disables a post, the admin single-post view still answers
   it, flagged as disabled, as long as its author resolves.
   */
  lemma DisabledPostAdminVisible(s: Store, admin: Claims, i: nat)
    requires admin.role == AdminRole
    requires i < |s.posts| && AuthorResolves(s.users, s.posts[i])
    ensures var r := AdminPost(DisablePost(s, admin, s.posts[i].id).store, admin, s.posts[i].id);
            r.Success? && r.value.isDisabled && r.value.id == s.posts[i].id
  {
    var id := s.posts[i].id;
    var s1 := DisablePost(s, admin, id).store;
    assert s1.users == s.users && s1.posts[i] == s.posts[i].(isDisabled := true);
    AdminPostShows(s1, admin, i);
    DisableFlagsEveryCopy(s, admin, id);
  }

  /** After disabling, every stored post carrying that id is flagged. */
  lemma DisableFlagsEveryCopy(s: Store, admin: Claims, id: PostId)
    requires admin.role == AdminRole
    ensures forall p :: p in DisablePost(s, admin, id).store.posts && p.id == id ==> p.isDisabled
  {
    var s1 := DisablePost(s, admin, id).store;
    forall p | p in s1.posts && p.id == id ensures p.isDisabled {
      var m :| 0 <= m < |s1.posts| && s1.posts[m] == p;
      assert s.posts[m].id == id;
    }
  }

  /** A rewrite that keeps every username keeps which user a name lookup finds. */
  lemma FindByNameAfterRewrite(users: seq<User>, users': seq<User>, name: string, k: nat)
    requires |users'| == |users| && k < |users|
    requires forall j :: 0 <= j < |users| ==> users'[j].username == users[j].username
    requires users[k].username == name && forall j :: 0 <= j < k ==> users[j].username != name
    ensures FindUserByName(users', name) == Some(users'[k])
  {
    var f := FindUserByName(users', name);
    var k' :| 0 <= k' < |users'| && users'[k'] == f.value
              && forall j :: 0 <= j < k' ==> users'[j].username != name;
    assert users'[k].username == name;
    assert users[k'].username == name;
    assert k' == k;
  }

  /**
   Once an admin blocks a user, that user's correct password yields 401
   'User is disabled' instead of a token.
   */
  lemma BlockedUserCannotLogIn(s: Store, admin: Claims, name: string, password: string,
                               hash: string -> string)
    requires admin.role == AdminRole
    requires FindUserByName(s.users, name).Some?
    requires hash(password) == FindUserByName(s.users, name).value.password
    ensures var u := FindUserByName(s.users, name).value;
            LogIn(BlockUser(s, admin, u.id).store, name, password, hash) == Failure(UserDisabled)
  {
    var u := FindUserByName(s.users, name).value;
    var k :| 0 <= k < |s.users| && s.users[k] == u && forall j :: 0 <= j < k ==> s.users[j].username != name;
    var users' := BlockUser(s, admin, u.id).store.users;
    assert forall j :: 0 <= j < |s.users| ==> users'[j].username == s.users[j].username;
    FindByNameAfterRewrite(s.users, users', name, k);
    assert users'[k] == u.(isDisabled := true);
  }

  /** A created post is then found by its new id, exactly as it was saved, with no feedback. */
  lemma CreateThenGet(s: Store, caller: Claims, title: string, content: string,
                      category: Option<string>, now: nat)
    requires Valid(s) && HasRequiredFields(title, content)
    ensures var s1 := CreatePost(s, caller, title, content, category, now).store;
            var r := GetPost(s1, s.nextId);
            && r.Success?
            && r.value.post == NewPost(s.nextId, title, content, category, caller.userId, now)
            && r.value.authorName == AuthorName(s.users, caller.userId)
  {
    var s1 := CreatePost(s, caller, title, content, category, now).store;
    var k := |s.posts|;
    assert s1.posts[k] == NewPost(s.nextId, title, content, category, caller.userId, now);
    forall j | 0 <= j < k ensures s1.posts[j].id != s.nextId {
      assert s1.posts[j] == s.posts[j];
    }
    var f := FindPost(s1.posts, s.nextId);
    var m :| 0 <= m < |s1.posts| && s1.posts[m] == f.value
             && forall j :: 0 <= j < m ==> s1.posts[j].id != s.nextId;
    assert m == k;
  }

  /** After a successful update, reading the post returns it with exactly the new fields. */
  lemma UpdateThenGet(s: Store, caller: Claims, postId: PostId, title: string, content: string,
                      category: Option<string>)
    requires Valid(s)
    requires UpdatePost(s, caller, postId, title, content, category).outcome == Done
    ensures var s1 := UpdatePost(s, caller, postId, title, content, category).store;
            GetPost(s1, postId).Success?
            && GetPost(s1, postId).value.post == Edited(FindPost(s.posts, postId).value, title, content, category)
  {
    var s1 := UpdatePost(s, caller, postId, title, content, category).store;
    var p := FindPost(s.posts, postId).value;
    var i :| 0 <= i < |s.posts| && s.posts[i] == p && forall j :: 0 <= j < i ==> s.posts[j].id != postId;
    assert s1.posts[i] == Edited(p, title, content, category);
    UpdatePostKeepsValid(s, caller, postId, title, content, category);
    FindPostAt(s1.posts, i);
  }

  /** After a successful delete the id answers 404. */
  lemma DeleteThenGet(s: Store, caller: Claims, postId: PostId)
    requires DeletePost(s, caller, postId).outcome == Done
    ensures GetPost(DeletePost(s, caller, postId).store, postId) == Failure(PostNotFound)
  {
  }
}

=== FILE: seqs.dfy ===
/**
 The query-shaping steps every listing route chains after its match:
 filtering, sorting on a timestamp, and offset pagination with the
 `parseInt(x) || default` fallback for the page parameters.
 */
module Seqs {
  import opened Types

  /** The elements of `s` that satisfy `keep`, in their original order. */
  function Filter<T(!new)>(s: seq<T>, keep: T -> bool): (r: seq<T>)
    ensures |r| <= |s|
    ensures forall i :: 0 <= i < |r| ==> r[i] in s && keep(r[i])
    ensures forall i :: 0 <= i < |s| && keep(s[i]) ==> s[i] in r
    ensures KeepsCounts(s, keep, r)
  {
    if |s| == 0 then []
    else
      var rest := Filter(s[1..], keep);
      CountsStep(s, keep, rest);
      if keep(s[0]) then [s[0]] + rest
      else rest
  }

  /** One step of `Filter`: the head is kept exactly when `keep` accepts it. */
  lemma FilterStep<T(!new)>(s: seq<T>, keep: T -> bool)
    requires |s| > 0
    ensures Filter(s, keep) == if keep(s[0]) then [s[0]] + Filter(s[1..], keep) else Filter(s[1..], keep)
  {
  }

  /** `f` applied to every item, in order. */
  function Map<T, U>(s: seq<T>, f: T -> U): (r: seq<U>)
    ensures |r| == |s|
    ensures forall i :: 0 <= i < |s| ==> r[i] == f(s[i])
  {
    if |s| == 0 then [] else [f(s[0])] + Map(s[1..], f)
  }

  /**
   Filtering commutes with a rewrite `f` that `keep` cannot tell apart: the
   kept items of the rewritten sequence are the rewritten kept items.
   */
  lemma {:induction false} FilterMap<T(!new)>(s: seq<T>, keep: T -> bool, f: T -> T)
    requires forall i :: 0 <= i < |s| ==> keep(f(s[i])) == keep(s[i])
    ensures Filter(Map(s, f), keep) == Map(Filter(s, keep), f)
  {
    if |s| > 0 {
      var s' := Map(s, f);
      assert s'[1..] == Map(s[1..], f);
      FilterMap(s[1..], keep, f);
      FilterStep(s, keep);
      FilterStep(s', keep);
      var rest := Filter(s[1..], keep);
      if keep(s[0]) {
        assert ([s[0]] + rest)[1..] == rest;
      }
    }
  }

  /** `r` holds each item `keep` accepts as many times as `s` does, and nothing else. */
  ghost predicate KeepsCounts<T(!new)>(s: seq<T>, keep: T -> bool, r: seq<T>) {
    forall x :: multiset(r)[x] == if keep(x) then multiset(s)[x] else 0
  }

  /** The counting step of `Filter`: deciding the head extends the counts of the tail. */
  lemma CountsStep<T(!new)>(s: seq<T>, keep: T -> bool, rest: seq<T>)
    requires |s| > 0 && KeepsCounts(s[1..], keep, rest)
    ensures KeepsCounts(s, keep, if keep(s[0]) then [s[0]] + rest else rest)
  {
    assert s == [s[0]] + s[1..];
  }

  /** The first element of `s` that satisfies `matches`, if any (`findOne`, `findById`). */
  function First<T(==)>(s: seq<T>, matches: T -> bool): (r: Option<T>)
    ensures r.None? <==> forall i :: 0 <= i < |s| ==> !matches(s[i])
    ensures r.Some? ==> exists i :: 0 <= i < |s| && s[i] == r.value
                          && forall j :: 0 <= j < i ==> !matches(s[j])
    ensures r.Some? ==> matches(r.value)
  {
    if |s| == 0 then None
    else if matches(s[0]) then Some(s[0])
    else
      var r := First(s[1..], matches);
      if r.Some? then
        var i :| 0 <= i < |s[1..]| && s[1..][i] == r.value
                 && forall j :: 0 <= j < i ==> !matches(s[1..][j]);
        assert s[i + 1] == r.value;
        r
      else r
  }

  /** No two items of `s` share a key. */
  predicate DistinctKeys<T>(s: seq<T>, key: T -> nat) {
    forall i, j :: 0 <= i < j < |s| ==> key(s[i]) != key(s[j])
  }

  /** Filtering keeps keys distinct (a deletion cannot create a duplicate id). */
  lemma {:induction false} FilterKeepsDistinct<T(!new)>(s: seq<T>, keep: T -> bool, key: T -> nat)
    requires DistinctKeys(s, key)
    ensures DistinctKeys(Filter(s, keep), key)
  {
    if |s| > 0 {
      var tail := s[1..];
      assert DistinctKeys(tail, key);
      FilterKeepsDistinct(tail, keep, key);
      var rest := Filter(tail, keep);
      if keep(s[0]) {
        forall k | 0 <= k < |rest| ensures key(s[0]) != key(rest[k]) {
          var m :| 0 <= m < |tail| && tail[m] == rest[k];
          assert s[m + 1] == rest[k];
        }
        DistinctCons(s[0], rest, key);
      }
    }
  }

  /** A head whose key no later item carries keeps the keys distinct. */
  lemma DistinctCons<T>(x: T, rest: seq<T>, key: T -> nat)
    requires DistinctKeys(rest, key)
    requires forall k :: 0 <= k < |rest| ==> key(x) != key(rest[k])
    ensures DistinctKeys([x] + rest, key)
  {
  }

  datatype Direction = Ascending | Descending

  /** `sortOrder` of a query: descending only for the exact value 'desc'. */
  function DirectionOf(sortOrder: string): (d: Direction)
    ensures d == Descending <==> sortOrder == "desc"
  {
    if sortOrder == "desc" then Descending else Ascending
  }

  /** `a` may come before `b` in direction `d`. */
  predicate InOrder(a: nat, b: nat, d: Direction) {
    if d == Ascending then a <= b else a >= b
  }

  predicate SortedBy<T>(s: seq<T>, key: T -> nat, d: Direction) {
    forall i, j :: 0 <= i < j < |s| ==> InOrder(key(s[i]), key(s[j]), d)
  }

  /** Inserts `x` into a sequence already sorted on `key`. */
  function Insert<T>(x: T, s: seq<T>, key: T -> nat, d: Direction): (r: seq<T>)
    requires SortedBy(s, key, d)
    ensures SortedBy(r, key, d)
    ensures multiset(r) == multiset(s) + multiset{x}
    ensures |r| == |s| + 1
  {
    if |s| == 0 then [x]
    else if InOrder(key(x), key(s[0]), d) then [x] + s
    else
      var rest := Insert(x, s[1..], key, d);
      assert s == [s[0]] + s[1..];
      assert forall k :: 0 <= k < |rest| ==> InOrder(key(s[0]), key(rest[k]), d) by {
        forall k | 0 <= k < |rest|
          ensures InOrder(key(s[0]), key(rest[k]), d)
        {
          assert rest[k] in multiset(rest);
          if rest[k] != x {
            assert rest[k] in multiset(s[1..]);
            var m :| 0 <= m < |s[1..]| && s[1..][m] == rest[k];
            assert s[m + 1] == rest[k];
          }
        }
      }
      [s[0]] + rest
  }

  /**
   The `.sort({field: order})` step on a timestamp key: the result is a
   permutation of the input, ordered on `key`. Items with equal keys come out
   in one fixed order, the same for every request; the database does not
   promise that across paged requests.
   */
  function SortBy<T>(s: seq<T>, key: T -> nat, d: Direction): (r: seq<T>)
    ensures SortedBy(r, key, d)
    ensures multiset(r) == multiset(s)
    ensures |r| == |s|
  {
    if |s| == 0 then []
    else
      assert s == [s[0]] + s[1..];
      Insert(s[0], SortBy(s[1..], key, d), key, d)
  }

  lemma SortByMembership<T>(s: seq<T>, key: T -> nat, d: Direction, x: T)
    ensures x in SortBy(s, key, d) <==> x in s
  {
    var r := SortBy(s, key, d);
    assert x in r <==> x in multiset(r);
    assert x in s <==> x in multiset(s);
  }

  /** Every item of the sorted sequence is an item of the input. */
  lemma SortedFromInput<T>(s: seq<T>, key: T -> nat, d: Direction)
    ensures forall i :: 0 <= i < |SortBy(s, key, d)| ==> SortBy(s, key, d)[i] in s
  {
    var r := SortBy(s, key, d);
    forall i | 0 <= i < |r| ensures r[i] in s {
      SortByMembership(s, key, d, r[i]);
    }
  }

  /** `parseInt(param) || fallback`: absent, non-numeric (None) and 0 all fall back. */
  function ParamOr(param: Option<nat>, fallback: nat): (n: nat)
    ensures param.Some? && param.value != 0 ==> n == param.value
    ensures param.None? || param.value == 0 ==> n == fallback
  {
    match param
    case Some(v) => if v == 0 then fallback else v
    case None => fallback
  }

  /** The effective page and page size of a listing: 1-indexed page, size 10 by default. */
  datatype Paging = Paging(page: nat, pageSize: nat)

  function PagingOf(page: Option<nat>, pageSize: Option<nat>): (p: Paging)
    ensures p.page >= 1 && p.pageSize >= 1
    ensures page.Some? && page.value != 0 ==> p.page == page.value
    ensures page.None? || page.value == 0 ==> p.page == 1
    ensures pageSize.Some? && pageSize.value != 0 ==> p.pageSize == pageSize.value
    ensures pageSize.None? || pageSize.value == 0 ==> p.pageSize == 10
  {
    Paging(ParamOr(page, 1), ParamOr(pageSize, 10))
  }

  /** `.skip(skip).limit(limit)`: at most `limit` items, starting at index `skip`. */
  function Window<T>(s: seq<T>, skip: nat, limit: nat): (r: seq<T>)
    ensures |r| <= limit
    ensures forall i :: 0 <= i < |r| ==> r[i] in s
    ensures skip >= |s| ==> r == []
    ensures skip < |s| ==> |r| == if skip + limit <= |s| then limit else |s| - skip
    ensures forall i :: 0 <= i < |r| ==> skip + i < |s| && r[i] == s[skip + i]
  {
    var lo := if skip <= |s| then skip else |s|;
    var hi := if skip + limit <= |s| then skip + limit else |s|;
    s[lo..hi]
  }

  /**
   The number of items the pages before `p.page` hold, one page at a time;
   `OffsetIsProduct` shows it is the handler's `(page - 1) * pageSize`.
   */
  function Offset(p: Paging): nat
    requires p.page >= 1
    decreases p.page
  {
    if p.page == 1 then 0 else Offset(Paging(p.page - 1, p.pageSize)) + p.pageSize
  }

  lemma {:induction false} OffsetIsProduct(p: Paging)
    requires p.page >= 1
    ensures Offset(p) == (p.page - 1) * p.pageSize
    decreases p.page
  {
    if p.page > 1 {
      OffsetIsProduct(Paging(p.page - 1, p.pageSize));
    }
  }

  /** How many of `n` items page `p` holds: a full page, the rest, or none once past the end. */
  function PageLength(n: nat, p: Paging): nat
    requires p.page >= 1
  {
    if Offset(p) >= n then 0
    else if Offset(p) + p.pageSize <= n then p.pageSize
    else n - Offset(p)
  }

  /** `.skip((page - 1) * pageSize).limit(pageSize)`. */
  function Page<T>(s: seq<T>, p: Paging): (r: seq<T>)
    requires p.page >= 1 && p.pageSize >= 1
    ensures |r| <= p.pageSize
    ensures forall i :: 0 <= i < |r| ==> r[i] in s
    ensures forall i :: 0 <= i < |r| ==> Offset(p) + i < |s| && r[i] == s[Offset(p) + i]
    ensures Offset(p) >= |s| ==> r == []
    ensures Offset(p) < |s| ==> |r| == if Offset(p) + p.pageSize <= |s| then p.pageSize else |s| - Offset(p)
    ensures |r| == PageLength(|s|, p)
  {
    Window(s, Offset(p), p.pageSize)
  }

  /** A page of a sorted sequence is sorted. */
  lemma PageKeepsOrder<T>(s: seq<T>, p: Paging, key: T -> nat, d: Direction)
    requires p.page >= 1 && p.pageSize >= 1
    requires SortedBy(s, key, d)
    ensures SortedBy(Page(s, p), key, d)
  {
    var r := Page(s, p);
    forall i, j | 0 <= i < j < |r| ensures InOrder(key(r[i]), key(r[j]), d) {
      assert r[i] == s[Offset(p) + i] && r[j] == s[Offset(p) + j];
    }
  }

  /** A property every item of a sequence has, every item of its pages has. */
  lemma PageKeepsAll<T>(s: seq<T>, p: Paging, P: T -> bool)
    requires p.page >= 1 && p.pageSize >= 1
    requires forall i :: 0 <= i < |s| ==> P(s[i])
    ensures forall i :: 0 <= i < |Page(s, p)| ==> P(Page(s, p)[i])
  {
    var r := Page(s, p);
    forall i | 0 <= i < |r| ensures P(r[i]) {
      assert r[i] == s[Offset(p) + i];
    }
  }

  /** Item `k` of a sequence is shown on page `k / size + 1`. */
  lemma PageOfIndex<T>(s: seq<T>, size: nat, k: nat) returns (n: nat)
    requires size >= 1 && k < |s|
    ensures n >= 1 && n == k / size + 1
    ensures Offset(Paging(n, size)) <= k < Offset(Paging(n, size)) + size
    ensures k - Offset(Paging(n, size)) < |Page(s, Paging(n, size))|
    ensures Page(s, Paging(n, size))[k - Offset(Paging(n, size))] == s[k]
  {
    n := k / size + 1;
    OffsetIsProduct(Paging(n, size));
    assert (k / size) * size + k % size == k;
  }

  /** The page, and the place on it, where an item of the sequence is shown. */
  lemma PlaceOnPage<T>(s: seq<T>, size: nat, x: T) returns (n: nat, i: nat)
    requires size >= 1 && x in s
    ensures n >= 1
    ensures i < |Page(s, Paging(n, size))| && Page(s, Paging(n, size))[i] == x
  {
    var k :| 0 <= k < |s| && s[k] == x;
    n := PageOfIndex(s, size, k);
    i := k - Offset(Paging(n, size));
  }

  /**
   Consecutive pages tile the sorted sequence: page n followed by page n+1 is
   exactly the window of 2*pageSize items starting at (n-1)*pageSize, so no
   item is skipped or repeated between pages.
   */
  lemma {:induction false} ConsecutivePages<T>(s: seq<T>, n: nat, size: nat)
    requires n >= 1 && size >= 1
    ensures var lo := (n - 1) * size;
      var hi := lo + 2 * size;
      Page(s, Paging(n, size)) + Page(s, Paging(n + 1, size))
        == s[(if lo <= |s| then lo else |s|)..(if hi <= |s| then hi else |s|)]
  {
    OffsetIsProduct(Paging(n, size));
    assert Offset(Paging(n + 1, size)) == Offset(Paging(n, size)) + size;
  }

  /** Page 2 of size 10 is items 11 to 20 (indexes 10 to 19) of the order. */
  lemma SecondPageOfTen<T>(s: seq<T>)
    requires |s| >= 20
    ensures Page(s, Paging(2, 10)) == s[10..20]
  {
    assert Offset(Paging(2, 10)) == 10;
  }
}

=== FILE: store.dfy ===
/**
 The four collections the routes read and write (users, blog posts, follow
 edges, notifications), the lookups the routes share, and the invariants a
 store reached through the routes keeps.
 */
module Store {
  import opened Types
  import opened Seqs
  import opened BlogModel
  import opened NotificationModel

  /** A user document; `password` holds the hash, never the password itself. */
  datatype User = User(
    id: UserId,
    username: string,
    email: string,
    password: string,
    role: Role,
    isDisabled: bool)

  /** A follow edge: `follower` receives `following`'s posts in the feed. */
  datatype FollowEdge = FollowEdge(follower: UserId, following: UserId)

  /**
   The database. `nextId` stands for ObjectId generation: every saved user or
   post takes the current value and the counter moves on.
   */
  datatype Store = Store(
    users: seq<User>,
    posts: seq<BlogPost>,
    follows: seq<FollowEdge>,
    notifications: seq<Notification>,
    nextId: nat)

  /** The result of a request that may write: its outcome and the store after it. */
  datatype Step = Step(outcome: Outcome, store: Store)

  /** `User.findById` (and the `$lookup` on `_id`): the first user carrying `id`. */
  function FindUser(users: seq<User>, id: UserId): (r: Option<User>)
    ensures r.None? <==> forall i :: 0 <= i < |users| ==> users[i].id != id
    ensures r.Some? ==> exists i :: 0 <= i < |users| && users[i] == r.value
                          && forall j :: 0 <= j < i ==> users[j].id != id
    ensures r.Some? ==> r.value.id == id
  {
    First(users, (u: User) => u.id == id)
  }

  /** `User.findOne({ username })`: the first user with that username. */
  function FindUserByName(users: seq<User>, username: string): (r: Option<User>)
    ensures r.None? <==> forall i :: 0 <= i < |users| ==> users[i].username != username
    ensures r.Some? ==> exists i :: 0 <= i < |users| && users[i] == r.value
                          && forall j :: 0 <= j < i ==> users[j].username != username
    ensures r.Some? ==> r.value.username == username
  {
    First(users, (u: User) => u.username == username)
  }

  /** With unique ids, the user found for an id is the one at any index carrying it. */
  lemma FindUserAt(users: seq<User>, i: nat)
    requires UniqueUserIds(users)
    requires i < |users|
    ensures FindUser(users, users[i].id) == Some(users[i])
  {
  }

  /** A rewrite that keeps every id keeps which index an id lookup finds. */
  lemma FindUserAfterRewrite(users: seq<User>, users': seq<User>, id: UserId, k: nat)
    requires |users'| == |users| && k < |users|
    requires forall j :: 0 <= j < |users| ==> users'[j].id == users[j].id
    requires users[k].id == id && forall j :: 0 <= j < k ==> users[j].id != id
    ensures FindUser(users', id) == Some(users'[k])
  {
    var f := FindUser(users', id);
    var k' :| 0 <= k' < |users'| && users'[k'] == f.value && forall j :: 0 <= j < k' ==> users'[j].id != id;
    assert users'[k].id == id;
    assert users[k'].id == id;
  }

  lemma FindPostAt(posts: seq<BlogPost>, i: nat)
    requires UniquePostIds(posts)
    requires i < |posts|
    ensures FindPost(posts, posts[i].id) == Some(posts[i])
  {
  }

  /** A post as returned after `.populate('author', 'username')`: null when the author is gone. */
  datatype PostView = PostView(post: BlogPost, authorName: Option<string>)

  function AuthorName(users: seq<User>, id: UserId): (r: Option<string>)
    ensures r.Some? <==> FindUser(users, id).Some?
    ensures r.Some? ==> r.value == FindUser(users, id).value.username
  {
    match FindUser(users, id)
    case Some(u) => Some(u.username)
    case None => None
  }

  /** Populates the author of every post of a result page, keeping the order. */
  function Populate(users: seq<User>, posts: seq<BlogPost>): (r: seq<PostView>)
    ensures |r| == |posts|
    ensures forall i :: 0 <= i < |r| ==> r[i].post == posts[i]
    ensures forall i :: 0 <= i < |r| ==> r[i].authorName == AuthorName(users, posts[i].author)
  {
    seq(|posts|, i requires 0 <= i < |posts| => PostView(posts[i], AuthorName(users, posts[i].author)))
  }

  /**
   A populated page of `order` is the window of `order` at the page's
   offset, each post with its author's name; it is empty exactly when the
   offset is past the end.
   */
  lemma PopulatedPage(users: seq<User>, order: seq<BlogPost>, p: Paging)
    requires p.page >= 1 && p.pageSize >= 1
    ensures var views := Populate(users, Page(order, p));
            && (|views| == 0 <==> Offset(p) >= |order|)
            && |views| == PageLength(|order|, p) <= p.pageSize
            && (forall i :: 0 <= i < |views| ==> views[i].post == order[Offset(p) + i])
            && (forall i :: 0 <= i < |views| ==> views[i].authorName == AuthorName(users, views[i].post.author))
  {
  }

  /**
   A populated page of a sequence sorted on the creation time keeps that
   order, and every post on it has a property all posts of the sequence have.
   */
  lemma PopulatedPageKeeps(users: seq<User>, order: seq<BlogPost>, p: Paging, d: Direction, P: BlogPost -> bool)
    requires p.page >= 1 && p.pageSize >= 1
    requires SortedBy(order, CreatedAt, d)
    requires forall i :: 0 <= i < |order| ==> P(order[i])
    ensures var views := Populate(users, Page(order, p));
            && (forall i :: 0 <= i < |views| ==> P(views[i].post))
            && (forall i, j :: 0 <= i < j < |views| ==> InOrder(views[i].post.createdAt, views[j].post.createdAt, d))
  {
    var rows := Page(order, p);
    PageKeepsOrder(order, p, CreatedAt, d);
    PageKeepsAll(order, p, P);
    var views := Populate(users, rows);
    assert forall i :: 0 <= i < |views| ==> views[i].post == rows[i];
  }

  // ---------------------------------------------------------------------------
  // Invariants

  predicate UniqueUserIds(users: seq<User>) {
    forall i, j :: 0 <= i < j < |users| ==> users[i].id != users[j].id
  }

  predicate UniquePostIds(posts: seq<BlogPost>) {
    forall i, j :: 0 <= i < j < |posts| ==> posts[i].id != posts[j].id
  }

  /** Ids handed out so far are all below the counter, so the next one is fresh. */
  predicate IdsBelow(s: Store) {
    && (forall i :: 0 <= i < |s.users| ==> s.users[i].id < s.nextId)
    && (forall i :: 0 <= i < |s.posts| ==> s.posts[i].id < s.nextId)
  }

  /** Only one admin may ever exist. */
  predicate AtMostOneAdmin(users: seq<User>) {
    forall i, j ::
      0 <= i < |users| && 0 <= j < |users| && users[i].role == AdminRole && users[j].role == AdminRole
      ==> i == j
  }

  predicate HasAdmin(users: seq<User>) {
    exists i :: 0 <= i < |users| && users[i].role == AdminRole
  }

  /** Every post has its required fields and at most one feedback entry per user. */
  predicate PostsWellFormed(posts: seq<BlogPost>) {
    forall i :: 0 <= i < |posts| ==>
      HasRequiredFields(posts[i].title, posts[i].content) && UniqueRaters(posts[i].feedback)
  }

  predicate HasEdge(follows: seq<FollowEdge>, follower: UserId, following: UserId) {
    exists i :: 0 <= i < |follows| && follows[i] == FollowEdge(follower, following)
  }

  /** No one follows themselves and no edge is stored twice. */
  predicate SimpleGraph(follows: seq<FollowEdge>) {
    && (forall i :: 0 <= i < |follows| ==> follows[i].follower != follows[i].following)
    && (forall i, j :: 0 <= i < j < |follows| ==> follows[i] != follows[j])
  }

  /** `id` names a stored user whose role is `user` (a follow target). */
  predicate IsPlainUser(users: seq<User>, id: UserId) {
    exists i :: 0 <= i < |users| && users[i].id == id && users[i].role == UserRole
  }

  /** Every edge points at an existing non-admin user. */
  predicate FollowTargetsArePlainUsers(s: Store) {
    forall i :: 0 <= i < |s.follows| ==> IsPlainUser(s.users, s.follows[i].following)
  }

  predicate NotificationsWellFormed(notifications: seq<Notification>) {
    forall i :: 0 <= i < |notifications| ==> WellFormed(notifications[i])
  }

  /** The invariants every route keeps. */
  predicate Valid(s: Store) {
    && UniqueUserIds(s.users)
    && UniquePostIds(s.posts)
    && IdsBelow(s)
    && AtMostOneAdmin(s.users)
    && PostsWellFormed(s.posts)
    && SimpleGraph(s.follows)
    && FollowTargetsArePlainUsers(s)
    && NotificationsWellFormed(s.notifications)
  }

  /** The empty database is valid. */
  lemma EmptyStoreValid()
    ensures Valid(Store([], [], [], [], 0))
  {
  }
}

=== FILE: text.dfy ===
/**
 Case-insensitive pattern matching, as `{ $regex: new RegExp(p, 'i') }` does
 for a pattern made of literal characters: the pattern occurs somewhere in the
 field, letters compared without regard to ASCII case.
 */
module Text {

  function Lower(c: char): (l: char)
    ensures 'A' <= c <= 'Z' ==> l as int == c as int + 32
    ensures !('A' <= c <= 'Z') ==> l == c
  {
    if 'A' <= c <= 'Z' then (c as int + 32) as char else c
  }

  predicate SameLetter(a: char, b: char) {
    Lower(a) == Lower(b)
  }

  /** `pattern` occurs in `s` starting at index `i`, ignoring case. */
  predicate OccursAt(pattern: string, s: string, i: nat)
    requires i + |pattern| <= |s|
  {
    forall k :: 0 <= k < |pattern| ==> SameLetter(pattern[k], s[i + k])
  }

  /** `new RegExp(pattern, 'i').test(s)` for a literal pattern. */
  predicate Matches(pattern: string, s: string) {
    exists i :: 0 <= i <= |s| - |pattern| && OccursAt(pattern, s, i)
  }

  /** An empty pattern (also what `new RegExp(undefined, 'i')` builds) matches every string. */
  lemma EmptyPatternMatchesAll(s: string)
    ensures Matches("", s)
  {
    assert OccursAt("", s, 0);
  }
}

=== FILE: types.dfy ===
/**
 Shared vocabulary of the blog backend model: optional values, the
 identifiers of stored documents, roles, token claims, and the outcome of a
 request together with the HTTP status the route handler answers with.
 */
module Types {

  /** The conventional Some/None datatype, used for optional fields and lookups. */
  datatype Option<+T> = None | Some(value: T) {
    function GetOr(default: T): T {
      match this
      case Some(v) => v
      case None => default
    }
  }

  /** Document identifiers (Mongo ObjectIds) are abstract naturals. */
  type UserId = nat
  type PostId = nat

  /** The two roles the registration route accepts. */
  datatype Role = UserRole | AdminRole

  /** The claims carried by a signed token: exactly the user's id and role. */
  datatype Claims = Claims(userId: UserId, role: Role)

  /** Every way a handler can refuse a request. */
  datatype Error =
    | UserExists          // register: username or email taken
    | InvalidRole         // register: role is neither 'user' nor 'admin'
    | AdminExists         // register: a second admin
    | InvalidCredentials  // login: unknown username or wrong password
    | UserDisabled        // login: blocked account
    | Unauthorized        // admin route called with a non-admin token
    | PostNotFound        // post id does not resolve
    | NotAuthor           // update/delete by someone other than the author
    | AlreadyRated        // second feedback by the same user
    | SelfFollow          // follow yourself
    | AlreadyFollowing    // duplicate follow edge
    | CannotFollowAdmin   // follow target is the admin
    | NoNotifications     // no unread notifications
    | NoFeedPosts         // the requested feed page is empty
    | ValidationFailed    // a required field is missing when a post is saved
    | TargetMissing       // follow target does not resolve (the handler crashes)
  {
    /** The HTTP status the handler answers this error with. */
    function Status(): nat {
      match this
      case UserExists | InvalidRole | AdminExists | AlreadyRated
        | SelfFollow | AlreadyFollowing | CannotFollowAdmin => 400
      case InvalidCredentials | UserDisabled | Unauthorized => 401
      case NotAuthor => 403
      case PostNotFound | NoNotifications | NoFeedPosts => 404
      case ValidationFailed | TargetMissing => 500
    }
  }

  /** The outcome of a request that writes: 201, 200, or an error. */
  datatype Outcome = Created | Done | Fail(error: Error) {
    function Status(): nat {
      match this
      case Created => 201
      case Done => 200
      case Fail(e) => e.Status()
    }
  }

  /** The outcome of a request that reads: the response body, or an error. */
  datatype Result<+T> = Success(value: T) | Failure(error: Error) {
    function Status(): nat {
      match this
      case Success(_) => 200
      case Failure(e) => e.Status()
    }
  }
}

=== FILE: user_routes.dfy ===
/**
 The authenticated `/user` routes: profile read and update, follow,
 unread notifications, and the feed of followed authors.
 */
module UserRoutes {
  import opened Types
  import opened Seqs
  import opened BlogModel
  import opened NotificationModel
  import opened Store

  // ---------------------------------------------------------------------------
  // GET/PUT /user/profile

  /** A user as `.select('-password')` returns it: every field but the password. */
  datatype UserView = UserView(id: UserId, username: string, email: string, role: Role, isDisabled: bool)

  function ViewOf(u: User): UserView {
    UserView(u.id, u.username, u.email, u.role, u.isDisabled)
  }

  /** GET /user/profile: the caller without the password; null (None) with 200 when missing. */
  function Profile(s: Store, caller: Claims): (r: Result<Option<UserView>>)
    ensures r.Success?
    ensures r.value.None? <==> FindUser(s.users, caller.userId).None?
    ensures r.value.Some? ==>
              var u := FindUser(s.users, caller.userId).value;
              && r.value.value.id == caller.userId
              && r.value.value.username == u.username && r.value.value.email == u.email
              && r.value.value.role == u.role && r.value.value.isDisabled == u.isDisabled
  {
    match FindUser(s.users, caller.userId)
    case None => Success(None)
    case Some(u) => Success(Some(ViewOf(u)))
  }

  /**
   PUT /user/profile: sets the caller's username and email with no
   uniqueness re-check; always 200, even when the caller is gone. A field
   absent from the body (None) is left as stored.
   */
  function UpdateProfile(s: Store, caller: Claims, username: Option<string>, email: Option<string>): (r: Step)
    ensures r.outcome == Done
    ensures r.store.(users := s.users) == s
    ensures |r.store.users| == |s.users|
    ensures forall i :: 0 <= i < |s.users| ==>
              var before, after := s.users[i], r.store.users[i];
              && after.id == before.id && after.password == before.password
              && after.role == before.role && after.isDisabled == before.isDisabled
              && (before.id == caller.userId ==>
                    && after.username == (if username.Some? then username.value else before.username)
                    && after.email == (if email.Some? then email.value else before.email))
              && (before.id != caller.userId ==> after == before)
  {
    var users := seq(|s.users|, i requires 0 <= i < |s.users| =>
      if s.users[i].id == caller.userId
      then s.users[i].(username := username.GetOr(s.users[i].username), email := email.GetOr(s.users[i].email))
      else s.users[i]);
    Step(Done, s.(users := users))
  }

  /**
   Reading the profile after updating it gives the fields sent, and every
   other field as it was.
   */
  lemma UpdateThenProfile(s: Store, caller: Claims, username: Option<string>, email: Option<string>)
    requires FindUser(s.users, caller.userId).Some?
    ensures var before := FindUser(s.users, caller.userId).value;
            Profile(UpdateProfile(s, caller, username, email).store, caller)
              == Success(Some(UserView(caller.userId, username.GetOr(before.username), email.GetOr(before.email),
                                       before.role, before.isDisabled)))
  {
    var before := FindUser(s.users, caller.userId).value;
    var users := UpdateProfile(s, caller, username, email).store.users;
    var k :| 0 <= k < |s.users| && s.users[k] == before && forall j :: 0 <= j < k ==> s.users[j].id != caller.userId;
    FindUserAfterRewrite(s.users, users, caller.userId, k);
  }

  /**
   Profile update can break username uniqueness: renaming one user to
   another's name leaves two users with that name.
   */
  lemma UpdateProfileCanDuplicateNames(s: Store, caller: Claims, i: nat, j: nat)
    requires i < |s.users| && j < |s.users| && i != j
    requires s.users[i].id == caller.userId && s.users[j].id != caller.userId
    ensures var after := UpdateProfile(s, caller, Some(s.users[j].username), None).store.users;
            after[i].username == after[j].username
  {
  }

  // ---------------------------------------------------------------------------
  // POST /user/follow/:userId

  /**
   Self-follow, then an existing edge, then an admin target are refused with
   nothing written; a target that does not resolve crashes the handler (500).
   A success stores one edge and one `follow` notification for the target.
   */
  function FollowUser(s: Store, caller: Claims, target: UserId, now: nat): (r: Step)
    ensures caller.userId == target ==> r == Step(Fail(SelfFollow), s)
    ensures caller.userId != target && HasEdge(s.follows, caller.userId, target)
            ==> r == Step(Fail(AlreadyFollowing), s)
    ensures caller.userId != target && !HasEdge(s.follows, caller.userId, target)
            && FindUser(s.users, target).None?
            ==> r == Step(Fail(TargetMissing), s)
    ensures caller.userId != target && !HasEdge(s.follows, caller.userId, target)
            && FindUser(s.users, target).Some? && FindUser(s.users, target).value.role == AdminRole
            ==> r == Step(Fail(CannotFollowAdmin), s)
    ensures r.outcome != Created ==> r.store == s
    ensures r.outcome == Created <==>
            && caller.userId != target && !HasEdge(s.follows, caller.userId, target)
            && FindUser(s.users, target).Some? && FindUser(s.users, target).value.role == UserRole
    ensures r.outcome == Created ==>
            && r.store.users == s.users && r.store.posts == s.posts && r.store.nextId == s.nextId
            && r.store.follows == s.follows + [FollowEdge(caller.userId, target)]
            && r.store.notifications == s.notifications + [FollowNotice(target, caller.userId, now)]
  {
    if caller.userId == target then Step(Fail(SelfFollow), s)
    else if HasEdge(s.follows, caller.userId, target) then Step(Fail(AlreadyFollowing), s)
    else match FindUser(s.users, target)
      case None => Step(Fail(TargetMissing), s)
      case Some(u) =>
        if u.role == AdminRole then Step(Fail(CannotFollowAdmin), s)
        else
          assert u.role == UserRole;
          Step(Created, s.(follows := s.follows + [FollowEdge(caller.userId, target)],
                           notifications := s.notifications + [FollowNotice(target, caller.userId, now)]))
  }

  /** Following twice in a row: the second attempt is refused and changes nothing. */
  lemma FollowTwice(s: Store, caller: Claims, target: UserId, now: nat, later: nat)
    requires FollowUser(s, caller, target, now).outcome == Created
    ensures var s1 := FollowUser(s, caller, target, now).store;
            FollowUser(s1, caller, target, later) == Step(Fail(AlreadyFollowing), s1)
  {
    var s1 := FollowUser(s, caller, target, now).store;
    assert s1.follows[|s.follows|] == FollowEdge(caller.userId, target);
  }

  // ---------------------------------------------------------------------------
  // GET /user/notifications

  /** The `postId` field of a notification in the response. */
  datatype PostRef =
    | NoPostField                      // deleted for `follow` entries, or never set
    | NullPost                         // set, but the post no longer exists
    | PostTitle(id: PostId, title: string)  // populated with the post's title

  datatype NotificationView = NotificationView(
    user: UserId,
    kind: Kind,
    post: PostRef,
    followerId: Option<UserId>,
    isRead: bool,
    createdAt: nat)

  /** `.populate('postId', 'title')`, then `delete postId` on `follow` entries. */
  function Shape(posts: seq<BlogPost>, n: Notification): (v: NotificationView)
    ensures v.user == n.user && v.kind == n.kind && v.followerId == n.followerId
    ensures v.isRead == n.isRead && v.createdAt == n.createdAt
    ensures n.kind == Follow ==> v.post == NoPostField
    ensures n.kind == Comment && n.postId.Some? ==>
              match FindPost(posts, n.postId.value)
              case None => v.post == NullPost
              case Some(p) => v.post == PostTitle(p.id, p.title)
  {
    var post :=
      if n.kind == Follow || n.postId.None? then NoPostField
      else match FindPost(posts, n.postId.value)
        case None => NullPost
        case Some(p) => PostTitle(p.id, p.title);
    NotificationView(n.user, n.kind, post, n.followerId, n.isRead, n.createdAt)
  }

  /** The caller's unread notifications, in store order. */
  function Unread(s: Store, user: UserId): (r: seq<Notification>)
    ensures forall i :: 0 <= i < |r| ==> r[i] in s.notifications && r[i].user == user && !r[i].isRead
    ensures forall n :: n in s.notifications && n.user == user && !n.isRead ==> n in r
    ensures KeepsCounts(s.notifications, (n: Notification) => n.user == user && !n.isRead, r)
  {
    Filter(s.notifications, (n: Notification) => n.user == user && !n.isRead)
  }

  /**
   GET /user/notifications: the caller's unread notifications, newest first,
   shaped for the response; 404 when there are none.
   */
  function Notifications(s: Store, caller: Claims): (r: Result<seq<NotificationView>>)
    ensures r.Failure? <==> forall n :: n in s.notifications ==> n.user != caller.userId || n.isRead
    ensures r.Failure? ==> r.error == NoNotifications
    ensures r.Success? ==>
              && |r.value| == |Unread(s, caller.userId)| > 0
              && (forall i :: 0 <= i < |r.value| ==>
                    exists n :: n in Unread(s, caller.userId) && r.value[i] == Shape(s.posts, n))
              && (forall i :: 0 <= i < |r.value| ==> r.value[i].user == caller.userId && !r.value[i].isRead)
              && (forall i :: 0 <= i < |r.value| && r.value[i].kind == Follow ==> r.value[i].post == NoPostField)
              && (forall i, j :: 0 <= i < j < |r.value| ==> r.value[i].createdAt >= r.value[j].createdAt)
              && (forall n :: n in s.notifications && n.user == caller.userId && !n.isRead
                    ==> Shape(s.posts, n) in r.value)
    ensures r.Success? ==>
              exists ns :: multiset(ns) == multiset(Unread(s, caller.userId)) && r.value == ShapeAll(s.posts, ns)
  {
    var mine := Unread(s, caller.userId);
    if |mine| == 0 then Failure(NoNotifications)
    else
      ShapedNewestFirst(s, caller.userId);
      Success(ShapeAll(s.posts, SortBy(mine, NotifiedAt, Descending)))
  }

  /** An unread notification is listed, shaped, in its recipient's notification response. */
  lemma UnreadIsListed(s: Store, caller: Claims, n: Notification)
    requires n in s.notifications && n.user == caller.userId && !n.isRead
    ensures Notifications(s, caller).Success? && Shape(s.posts, n) in Notifications(s, caller).value
  {
  }

  /** The response rows: the caller's unread notifications, shaped, newest first, none missing. */
  lemma ShapedNewestFirst(s: Store, user: UserId)
    ensures var rows := ShapeAll(s.posts, SortBy(Unread(s, user), NotifiedAt, Descending));
            && |rows| == |Unread(s, user)|
            && (forall i :: 0 <= i < |rows| ==> exists n :: n in Unread(s, user) && rows[i] == Shape(s.posts, n))
            && (forall i :: 0 <= i < |rows| ==> rows[i].user == user && !rows[i].isRead)
            && (forall i :: 0 <= i < |rows| && rows[i].kind == Follow ==> rows[i].post == NoPostField)
            && (forall i, j :: 0 <= i < j < |rows| ==> rows[i].createdAt >= rows[j].createdAt)
            && (forall n :: n in s.notifications && n.user == user && !n.isRead ==> Shape(s.posts, n) in rows)
  {
    var sorted := SortBy(Unread(s, user), NotifiedAt, Descending);
    UnreadNewestFirst(s, user);
    var rows := ShapeAll(s.posts, sorted);
    forall i | 0 <= i < |rows| ensures exists n :: n in Unread(s, user) && rows[i] == Shape(s.posts, n) {
      SortByMembership(Unread(s, user), NotifiedAt, Descending, sorted[i]);
    }
    forall i, j | 0 <= i < j < |rows| ensures rows[i].createdAt >= rows[j].createdAt {
      assert InOrder(NotifiedAt(sorted[i]), NotifiedAt(sorted[j]), Descending);
    }
  }

  /** Sorting the unread notifications keeps exactly the caller's unread ones. */
  lemma UnreadNewestFirst(s: Store, user: UserId)
    ensures var sorted := SortBy(Unread(s, user), NotifiedAt, Descending);
            && (forall i :: 0 <= i < |sorted| ==> sorted[i].user == user && !sorted[i].isRead)
            && (forall n :: n in s.notifications && n.user == user && !n.isRead ==> n in sorted)
  {
    var mine := Unread(s, user);
    var sorted := SortBy(mine, NotifiedAt, Descending);
    forall i | 0 <= i < |sorted| ensures sorted[i].user == user && !sorted[i].isRead {
      SortByMembership(mine, NotifiedAt, Descending, sorted[i]);
    }
    forall n | n in s.notifications && n.user == user && !n.isRead ensures n in sorted {
      SortByMembership(mine, NotifiedAt, Descending, n);
    }
  }

  /** Shapes every notification of a response, keeping the order. */
  function ShapeAll(posts: seq<BlogPost>, ns: seq<Notification>): (r: seq<NotificationView>)
    ensures |r| == |ns|
    ensures forall i :: 0 <= i < |r| ==> r[i] == Shape(posts, ns[i])
    ensures forall n :: n in ns ==> Shape(posts, n) in r
  {
    var r := seq(|ns|, i requires 0 <= i < |ns| => Shape(posts, ns[i]));
    assert forall n :: n in ns ==> Shape(posts, n) in r by {
      forall n | n in ns ensures Shape(posts, n) in r {
        var k :| 0 <= k < |ns| && ns[k] == n;
        assert r[k] == Shape(posts, n);
      }
    }
    r
  }

  // ---------------------------------------------------------------------------
  // GET /user/feed

  /** The ids the user follows: `UserInteraction.find({ follower })`, mapped to `following`. */
  function Following(follows: seq<FollowEdge>, user: UserId): set<UserId> {
    set e | e in follows && e.follower == user :: e.following
  }

  predicate InFeed(s: Store, user: UserId, p: BlogPost) {
    p.author in Following(s.follows, user) && !p.isDisabled
  }

  /** What the feed pages through: every enabled post of a followed author, newest first. */
  function FeedOrder(s: Store, user: UserId): (r: seq<BlogPost>)
    ensures SortedBy(r, CreatedAt, Descending)
    ensures forall p :: p in r <==> p in s.posts && InFeed(s, user, p)
    ensures KeepsCounts(s.posts, (p: BlogPost) => InFeed(s, user, p), r)
  {
    var matched := Filter(s.posts, (p: BlogPost) => InFeed(s, user, p));
    var sorted := SortBy(matched, CreatedAt, Descending);
    forall p ensures p in sorted <==> p in matched {
      SortByMembership(matched, CreatedAt, Descending, p);
    }
    sorted
  }

  /**
   GET /user/feed: page `page` of the feed order, each post with its
   author's name; 404 exactly when that page is empty.
   */
  function Feed(s: Store, caller: Claims, page: Option<nat>, pageSize: Option<nat>): (r: Result<seq<PostView>>)
    ensures r.Failure? <==> Offset(PagingOf(page, pageSize)) >= |FeedOrder(s, caller.userId)|
    ensures r.Failure? ==> r.error == NoFeedPosts
    ensures r.Success? ==>
              && |r.value| == PageLength(|FeedOrder(s, caller.userId)|, PagingOf(page, pageSize))
              && (forall i :: 0 <= i < |r.value| ==>
                    r.value[i].post == FeedOrder(s, caller.userId)[Offset(PagingOf(page, pageSize)) + i])
              && (forall i :: 0 <= i < |r.value| ==>
                    r.value[i].authorName == AuthorName(s.users, r.value[i].post.author))
    ensures r.Success? ==>
              && 0 < |r.value| <= PagingOf(page, pageSize).pageSize
              && (forall i :: 0 <= i < |r.value| ==>
                    r.value[i].post in s.posts && InFeed(s, caller.userId, r.value[i].post))
              && (forall i, j :: 0 <= i < j < |r.value| ==>
                    r.value[i].post.createdAt >= r.value[j].post.createdAt)
    ensures (forall p :: p in s.posts ==> !InFeed(s, caller.userId, p)) ==> r.Failure?
  {
    var p := PagingOf(page, pageSize);
    var rows := Page(FeedOrder(s, caller.userId), p);
    PopulatedPage(s.users, FeedOrder(s, caller.userId), p);
    FeedPageContents(s, caller.userId, p);
    FeedOrderEmpty(s, caller.userId);
    if |rows| == 0 then Failure(NoFeedPosts)
    else Success(Populate(s.users, rows))
  }

  /** Every populated page of the feed order holds enabled posts of followed authors, newest first. */
  lemma FeedPageContents(s: Store, user: UserId, p: Paging)
    requires p.page >= 1 && p.pageSize >= 1
    ensures var views := Populate(s.users, Page(FeedOrder(s, user), p));
            && (forall i :: 0 <= i < |views| ==> views[i].post in s.posts && InFeed(s, user, views[i].post))
            && (forall i, j :: 0 <= i < j < |views| ==> views[i].post.createdAt >= views[j].post.createdAt)
  {
    var order := FeedOrder(s, user);
    forall i | 0 <= i < |order| ensures order[i] in s.posts && InFeed(s, user, order[i]) {
      assert order[i] in order;
    }
    PopulatedPageKeeps(s.users, order, p, Descending, (q: BlogPost) => q in s.posts && InFeed(s, user, q));
  }

  /** With no enabled post by a followed author the feed order is empty. */
  lemma FeedOrderEmpty(s: Store, user: UserId)
    ensures (forall q :: q in s.posts ==> !InFeed(s, user, q)) ==> FeedOrder(s, user) == []
  {
    var order := FeedOrder(s, user);
    if |order| > 0 {
      assert order[0] in order;
    }
  }

  /** Every enabled post of a followed author is shown on some page of the feed. */
  lemma EveryFeedPostIsOnSomePage(s: Store, caller: Claims, pageSize: Option<nat>, p: BlogPost)
    requires p in s.posts && InFeed(s, caller.userId, p)
    ensures exists n: nat, i :: n >= 1 && Feed(s, caller, Some(n), pageSize).Success?
              && 0 <= i < |Feed(s, caller, Some(n), pageSize).value|
              && Feed(s, caller, Some(n), pageSize).value[i].post == p
  {
    var order := FeedOrder(s, caller.userId);
    var size := PagingOf(None, pageSize).pageSize;
    var n, i := PlaceOnPage(order, size, p);
    assert PagingOf(Some(n), pageSize) == Paging(n, size);
    var r := Feed(s, caller, Some(n), pageSize);
    assert r == Success(Populate(s.users, Page(order, Paging(n, size))));
    assert r.value[i].post == p;
  }
}
